=== FILE: README.md ===
# LookDev dual-view render pipeline, modelled in Dafny

This project models the per-frame core of the LookDev preview window of Unity's
Scriptable Render Pipeline core package. LookDev shows a scene in one or two views.
Each frame, the `Compositer` reads the window's current layout and asks the displayer
for the rectangle of each view. It then has the `Renderer` render the view into an
offscreen render texture and hands that texture back to the displayer.

The model covers:

- **Sizing** (`sizing.dfy`, module `Sizing`). The supersampling scale factor
  (`GetScaleFactor`) and the integer render-target size derived from it. Floats are
  reals. `Mathf.Round` is round-half-to-even and the `(int)` cast truncates toward
  zero.
- **Render-target reuse** (`texture_cache.dfy` and `renderer.dfy`).
  `RenderTextureCache.UpdateSize` and `Renderer.UpdateSizeAndLinkToCamera`
  reallocate a target only when it is missing or the wrong size. A reallocation
  destroys the previous target first. Textures are handles carrying an identity and
  a size; new identities come from a counter.
- **Stages** (`stages.dfy`). The two preview stages, each with its own scene name and
  background colour. A refused render-settings override aborts construction.
- **Rendering** (`renderer.dfy`, module `Rendering`). `Renderer.Acquire` drops the
  output of a degenerate viewport. Otherwise it brackets one camera render between
  showing the content and enabling the camera, and disabling the camera and hiding
  the content.
- **Display** (`display.dfy`). `DisplayWindow`'s `GetRect` and `SetTexture`, where
  the composite index is an alias of the first view. Also the `layout` and
  `showEnvironmentPanel` setters, which keep the containers' style classes in step
  with the stored layout.
- **Compositing** (`compositer.dfy`). `Compositer.Render` dispatches on the six
  layouts and brackets the frame with a frame capture when one was requested. The
  request is dropped at the end of every frame.

Engine calls cannot be given meaning here, so each becomes an `Effect` recorded in a
trace in the order it happens. These are texture allocation and destruction,
setting a camera's target, showing content, enabling a camera, rendering, and the
capture brackets. The compositer's own calls into the renderer and displayer are
recorded as `AcquireCalled` and `TextureDelivered`. The projection `Milestones` keeps
those calls and the camera renders, in order and with every occurrence, and the frame
contracts are stated over it. So a frame contract fixes how many times each view is
rendered and between which calls.

The display density `EditorGUIUtility.pixelsPerPoint` is a parameter. So are
RenderDoc's availability and `Unsupported.SetOverrideRenderSettings`'s answer.

### Notable behaviour of the code

- **512 × 512 pixel-perfect target.** A 512 × 512 pixel-perfect viewport at density 1
  gets factor 2 and a 1024 × 1024 target: `min(2·512, 1024)` is 1024, so each axis
  factor is 2 (`Sizing.PixelPerfectSquareExample`).
- **Single-view delivery index.** The single-view layouts and the splits deliver the
  first view to the `First` index and the second view to the `Second` index.
- **Custom layouts.** The custom layouts acquire both views with the composite
  rectangle and then deliver no texture (`null`) to the `Composite` index.
- **Orphaned target.** A degenerate viewport sets `output` to null without destroying
  the texture, and the camera keeps targeting it. The next proper acquire allocates a
  fresh target and never destroys the old one (`Rendering.DegenerateThenProperAcquire`).

## Model

Source paths are relative to the repository root.

| member | source | states |
|---|---|---|
| Sizing.AxisFactor | com.unity.render-pipelines.core/Editor/LookDev/Renderer.cs:495-496 | For a positive side the axis factor lies in [1, 2]. Sides up to 512 get factor exactly 2, sides of 1024 or more get factor 1, and a negative side gives factor 1. |
| Sizing.AxisFactorScaledSide | com.unity.render-pipelines.core/Editor/LookDev/Renderer.cs:495-496 | The scaled side lies between the side and max(side, 1024), and a side strictly between 512 and 1024 is stretched to exactly 1024. |
| Sizing.RoundHalfEven | com.unity.render-pipelines.core/Editor/LookDev/Renderer.cs:499-500 | `Mathf.Round` is within 0.5 of its argument, and a tie goes to the even integer. |
| Sizing.RawScaleFactorIsSmallerAxis | com.unity.render-pipelines.core/Editor/LookDev/Renderer.cs:495-497 | The unrounded factor is one of the two axis factors times the density, and for a nonnegative density it is no larger than either: the smaller axis factor wins. |
| Sizing.RawScaleFactorDensityBounds | com.unity.render-pipelines.core/Editor/LookDev/Renderer.cs:495-497 | For positive sides and density, the unrounded factor lies in [density, 2·density]. |
| Sizing.RawScaleFactorCapped | com.unity.render-pipelines.core/Editor/LookDev/Renderer.cs:495-497 | At density 1 each scaled side stays between the side and max(side, 1024): never undersampled, never supersampled past the cap. |
| Sizing.ScaleFactor | com.unity.render-pipelines.core/Editor/LookDev/Renderer.cs:55-63 | A pixel-perfect factor is an integer of at least 1. It is within 0.5 of the raw factor when that is at least 1, and exactly 1 when the raw factor is below 1. Without pixel-perfect rounding the factor is the raw one. This covers both copies of `GetScaleFactor`. |
| Sizing.Truncate | com.unity.render-pipelines.core/Editor/LookDev/Renderer.cs:466-467 | The `(int)` cast rounds toward zero: for a nonnegative value it is the floor, for a negative one the ceiling. |
| Sizing.TargetSize | com.unity.render-pipelines.core/Editor/LookDev/Renderer.cs:465-467 | For positive sides and density, both target dimensions are nonnegative. |
| Sizing.SupersampledExample | com.unity.render-pipelines.core/Editor/LookDev/Renderer.cs:493-501 | A 100 × 50 viewport at density 1 gets a 200 × 100 target. |
| Sizing.PixelPerfectSquareExample | com.unity.render-pipelines.core/Editor/LookDev/Renderer.cs:493-501 | A 512 × 512 pixel-perfect viewport at density 1 has factor 2 and gets a 1024 × 1024 target. |
| Sizing.LargeViewportExample | com.unity.render-pipelines.core/Editor/LookDev/Renderer.cs:493-501 | For 2000 × 300 the smaller axis factor (1) wins, so the target is 2000 × 300. |
| TextureCache.Replace | com.unity.render-pipelines.core/Editor/LookDev/Renderer.cs:32-46 | A replacement has the requested size and the next identity. It is preceded by the destruction of the previous target when there was one. |
| TextureCache.ResizeSlot | com.unity.render-pipelines.core/Editor/LookDev/Renderer.cs:30-52 | For a known target size, the slot fits it afterwards and the other slots are untouched. The slot changes iff it did not fit; a fitting slot means no effect at all. Otherwise the old target (if any) is destroyed, a new one with the next identity is allocated, and the camera is bound to it, in that order. |
| TextureCache.UpdateSize | com.unity.render-pipelines.core/Editor/LookDev/Renderer.cs:25-53 | Afterwards the slot fits the target size and the other slots are untouched. The slot changes iff it did not fit; a fitting slot means no effect at all. Otherwise a new target with the next identity is allocated after the old one is destroyed and then bound to the camera. |
| TextureCache.UpdateSizeIdempotent | com.unity.render-pipelines.core/Editor/LookDev/Renderer.cs:25-53 | A second `UpdateSize` with the same rectangle allocates, destroys and binds nothing. |
| TextureCache.ResizeDestroysThenAllocates | com.unity.render-pipelines.core/Editor/LookDev/Renderer.cs:31-46 | Resizing an occupied slot destroys exactly the previous target, once, before its only allocation. |
| Stages.InitStage | com.unity.render-pipelines.core/Editor/LookDev/Renderer.cs:91-124 | A stage is built iff the render-settings override is accepted; a refusal is the "scene not created" error. A new stage's camera belongs to its view. |
| Stages.InitStages | com.unity.render-pipelines.core/Editor/LookDev/Renderer.cs:80-89 | Both stages are built iff both overrides are accepted. They belong to the first and second view and have distinct names and backgrounds. |
| Rendering.IsNullArea | com.unity.render-pipelines.core/Editor/LookDev/Renderer.cs:430-432 | A rectangle is not degenerate iff both sides are numbers of at least 1. A non-degenerate rectangle can be sized. |
| Rendering.LinkTarget | com.unity.render-pipelines.core/Editor/LookDev/Renderer.cs:468-490 | For a known target size, the output fits it afterwards and the camera targets it. The output is replaced iff it did not fit, and a replacement takes the next identity. The trace is exact and ordered. A fitting output the camera already targets causes no effect, and a fitting output it does not target causes only the binding. Otherwise the old output (if any) is destroyed, then the new one allocated, then the camera bound to it if it was not already. |
| Rendering.LinkTargetEffects | com.unity.render-pipelines.core/Editor/LookDev/Renderer.cs:468-490 | Every effect of the linking is target work for this camera's view. A texture is allocated iff it is the replacement, and destroyed iff it is the replaced output. The camera is bound to a texture iff it was off the output and that texture is the output. |
| Rendering.UpdateSizeAndLinkToCamera | com.unity.render-pipelines.core/Editor/LookDev/Renderer.cs:463-491 | The same exact, ordered outcome as `LinkTarget` for the viewport's target size. The output fits that size and the camera targets it. A replacement happens iff the output did not fit, takes the next identity, and is traced as destroy old, allocate new, bind. A fitting, bound output causes no effect. |
| Rendering.CacheAgreesWithRenderer | com.unity.render-pipelines.core/Editor/LookDev/Renderer.cs:25-53 | The cache's and the renderer's sizing agree on the target and the counter. Their cameras agree unless the renderer rebinds a camera that was off an unchanged target. |
| Rendering.BeginRendering | com.unity.render-pipelines.core/Editor/LookDev/Renderer.cs:450-455 | The output fits the viewport's target size, is replaced iff it did not fit, and a replacement takes the next identity. The stage ends shown, with the camera enabled and on the output. The trace is exactly: show the content, then the target work of `UpdateSizeAndLinkToCamera` in its order, then enable the camera. A fitting, bound target leaves only the show and the enable. |
| Rendering.EndRendering | com.unity.render-pipelines.core/Editor/LookDev/Renderer.cs:457-461 | The camera is disabled and the content hidden, in that order. Nothing else about the stage, its camera or the data changes. |
| Rendering.Acquire | com.unity.render-pipelines.core/Editor/LookDev/Renderer.cs:437-448 | A degenerate viewport drops the output and does nothing else. Otherwise the output fits the viewport, is reallocated only when it did not fit, and a new target takes the next identity. The stage ends disabled and hidden with the camera on the output. The trace is exactly: show, the target work of `UpdateSizeAndLinkToCamera`, enable, render, disable, hide. So every effect belongs to this view, the one render is third from last, only the previous output is ever destroyed and only the new one allocated (`RenderTrace`). A view already settled for its viewport comes back unchanged, with only the steady bracket. |
| Rendering.BracketAroundRender | com.unity.render-pipelines.core/Editor/LookDev/Renderer.cs:444-460 | Begin, one render, then end, around any linking work, form a trace of this view's effects only, with the render third from last. It destroys exactly the replaced output and allocates exactly the replacement. With a fitting, bound target it is the five-effect steady bracket. |
| Rendering.AroundTargetWork | com.unity.render-pipelines.core/Editor/LookDev/Renderer.cs:450-460 | Any target work of one view placed between showing the content and enabling the camera, then followed by render, disable and hide, gives a bracket of that view's effects only. The render is third from last, and the destructions and allocations are exactly those of the work. |
| Rendering.AcquireTwice | com.unity.render-pipelines.core/Editor/LookDev/Renderer.cs:437-491 | Acquiring the same viewport again changes neither the data nor the counter. It only shows, enables, renders, disables and hides. |
| Rendering.DegenerateThenProperAcquire | com.unity.render-pipelines.core/Editor/LookDev/Renderer.cs:437-443 | A degenerate acquire drops the output without destroying it or rebinding the camera. The next proper acquire allocates a new target and never destroys the dropped one. |
| Display.ShownOn | com.unity.render-pipelines.core/Editor/LookDev/DisplayWindow.cs:259-268 | Each index is shown on its own view, except the composite index, which is shown on the first view. |
| Display.GetRect | com.unity.render-pipelines.core/Editor/LookDev/DisplayWindow.cs:243-255 | The second index gets the second view's rectangle; the first and composite indices get the first view's. |
| Display.SetTexture | com.unity.render-pipelines.core/Editor/LookDev/DisplayWindow.cs:257-273 | The view the index is shown on gets the texture. Its rectangle, the other view, the context and the classes are unchanged. An assignment is recorded iff the image differed. |
| Display.SwitchClasses | com.unity.render-pipelines.core/Editor/LookDev/DisplayWindow.cs:64-95 | The switch over the new layout adds and removes only the layout classes. Afterwards `firstView` and `secondView` are present exactly as the layout prescribes. The vertical split gains `verticalSplit`, and every other layout leaves that class as it was. |
| Display.CompositeAliasesFirst | com.unity.render-pipelines.core/Editor/LookDev/DisplayWindow.cs:243-273 | The composite index behaves exactly like the first, for rectangles and for textures. |
| Display.SetTextureIdempotent | com.unity.render-pipelines.core/Editor/LookDev/DisplayWindow.cs:263-264 | Setting the same texture twice assigns nothing the second time. |
| Display.SetLayout | com.unity.render-pipelines.core/Editor/LookDev/DisplayWindow.cs:57-107 | Setting the current layout changes nothing and raises nothing. A new layout is stored and raised once. The managed classes become exactly those of the new layout, and the other classes and everything else are unchanged. |
| Display.SetLayoutKeepsConsistency | com.unity.render-pipelines.core/Editor/LookDev/DisplayWindow.cs:60-104 | A window whose managed classes match its layout keeps them matching, whatever layout is set. |
| Display.SetLayoutViewClasses | com.unity.render-pipelines.core/Editor/LookDev/DisplayWindow.cs:64-101 | After a change, the splits carry both view classes. The first-view layouts carry only `firstView`, the second-view layout only `secondView`, and `verticalSplit` is present iff the layout is the vertical split. |
| Display.SetShowEnvironmentPanel | com.unity.render-pipelines.core/Editor/LookDev/DisplayWindow.cs:110-129 | The switch is stored. On a change the panel class is present iff the panel is shown. Other classes and the views are unchanged, and setting the current value does nothing. |
| Display.SetShowEnvironmentPanelKeepsConsistency | com.unity.render-pipelines.core/Editor/LookDev/DisplayWindow.cs:113-127 | A main container whose panel class matches the switch keeps it matching. |
| Compositing.NewCompositer | com.unity.render-pipelines.core/Editor/LookDev/Renderer.cs:162-179 | Construction succeeds iff both stages are built. Each rendering slot then holds its own view's stage and no output, no capture is pending, and the renderer is not pixel-perfect. Every held texture was numbered before the counter (`Valid`). |
| Compositing.RequestCapture | com.unity.render-pipelines.core/Editor/LookDev/Renderer.cs:181-182 | A capture is pending afterwards, and nothing else changes. |
| Compositing.MilestonesMembers | com.unity.render-pipelines.core/Editor/LookDev/Renderer.cs:234-262 | An effect is among the milestones of a trace iff it is in the trace and is a compositer call (an `Acquire` or a `SetTexture`) or a camera render. |
| Compositing.MilestonesCount | com.unity.render-pipelines.core/Editor/LookDev/Renderer.cs:234-262 | The milestones keep every occurrence: a call or render occurs as often among them as in the trace, so they count the renders. |
| Compositing.RenderTraceMilestones | com.unity.render-pipelines.core/Editor/LookDev/Renderer.cs:444-447 | The trace of one render of a view has that single render as its only milestone: no compositer call and no second render. |
| Compositing.NewTargetsAreUnheld | com.unity.render-pipelines.core/Editor/LookDev/Renderer.cs:483-485 | A target created by an acquire is none of the textures the compositer held as outputs or camera targets before it, because every held identity is below the counter (`Valid`). |
| Compositing.AcquireView | com.unity.render-pipelines.core/Editor/LookDev/Renderer.cs:236-238 | For a degenerate rectangle the trace is empty. Otherwise it is exactly one render trace of this view (`RenderTrace`): show, this view's target work, enable, the single render, disable, hide. It destroys only the replaced target and allocates only the new one. So its milestones are the view's one render, or none (`RenderOf`). The acquired view's viewport is the given rectangle, and it holds a target sized for it (none if degenerate). The target was replaced iff the old one did not fit (`AcquiredWith`), and a new target takes the next identity (`Counted`). The other view's data is untouched, and every held identity stays below the counter. A view already settled for the rectangle is left exactly as it was and is only rendered (`SteadyAcquire`). |
| Compositing.RenderSingleAndOutput | com.unity.render-pipelines.core/Editor/LookDev/Renderer.cs:234-243 | The milestones are exactly: acquire this view with its own rectangle, render it once (never for a degenerate rectangle), then deliver its output at its own index (`SingleMilestones`). The view is acquired as `AcquireView` states, new targets are counted, and the image shows the output. Every other effect is this view's engine work, and only if it was rendered (`Drawn`), or that image's assignment. The other view's data and image are untouched. A settled view whose image already shows its target gives exactly the steady frame (`SingleSteady`). |
| Compositing.RenderCompositeAndOutput | com.unity.render-pipelines.core/Editor/LookDev/Renderer.cs:245-262 | The milestones are exactly (`CompositeMilestones`): acquire the first view, render it, acquire the second, render it, then deliver nothing at the composite index. Both acquires use the composite rectangle, and neither view is rendered if it is degenerate. Both views are acquired as `AcquireView` states, the first view's new target numbered before the second's. Every other effect is engine work of a rendered view or the clearing of the first image, and the second image is untouched. A settled pair with a clear first image gives exactly the steady frame (`CompositeSteady`). |
| Compositing.AcquireBoth | com.unity.render-pipelines.core/Editor/LookDev/Renderer.cs:247-256 | Both views are acquired with the one rectangle, first then second. Each trace is empty for a degenerate rectangle and otherwise exactly one render trace of that view, with that view's one render as its only milestone. Each view ends settled for the rectangle, each target replaced iff it did not fit, the first view's new target numbered before the second's. A settled pair is returned unchanged with two steady brackets. |
| Compositing.RenderBothSingles | com.unity.render-pipelines.core/Editor/LookDev/Renderer.cs:212-215 | The milestones are exactly: acquire the first view, render it, deliver it at `First`, then acquire the second, render it, deliver it at `Second`. Each view uses its own rectangle and is not rendered if it is degenerate. Each view is acquired as `AcquireView` states, the first view's new target numbered before the second's. Each image shows its view's output, and every other effect is engine work of a rendered view or an image assignment. A settled pair whose images show their targets gives exactly the two steady single frames. |
| Compositing.RenderLayout | com.unity.render-pipelines.core/Editor/LookDev/Renderer.cs:204-221 | Per layout (`LayoutOutcome`): the ordered acquires, renders and deliveries (`FrameMilestones`), where each acquired view is rendered once between its acquire and the next call, or not at all for a degenerate rectangle. It also states the viewport and sized target each acquired view is left with, and that each target is replaced iff it did not fit. New targets are numbered in acquisition order. Every engine effect belongs to a view that was rendered (`Framed` with `Drawn`), with the images shown and the data left untouched. A settled frame (`FrameSettled`) repeats exactly the steady trace (`SteadyFrame`) and changes nothing. |
| Compositing.Render | com.unity.render-pipelines.core/Editor/LookDev/Renderer.cs:196-232 | The frame does what its layout prescribes (`LayoutOutcome`): ordered acquires, renders and deliveries, one render per view acquired with a proper rectangle, and no engine effect of a view acquired with a degenerate one. The pending request is always dropped. It leaves the compositer and the window settled for the layout. When capture is available and requested there is one begin, first, and one end, last; otherwise there are none. An uncaptured frame from a settled state is exactly the steady trace and changes nothing but the request flag. |
| Compositing.CaptureBracket | com.unity.render-pipelines.core/Editor/LookDev/Renderer.cs:198-230 | The capture bracket adds one begin first and one end last, and nothing else. The milestones and every other effect are those of the body. |
| Compositing.OutcomeIgnoresCapture | com.unity.render-pipelines.core/Editor/LookDev/Renderer.cs:198-231 | The layout outcome is unaffected by the capture bracket and by dropping the request. |
| Compositing.OutcomeSettles | com.unity.render-pipelines.core/Editor/LookDev/Renderer.cs:204-243 | Whatever layout was rendered, the frame leaves every acquired view settled for its rectangle, with its image showing what the next frame would deliver. |
| Compositing.FrameRenders | com.unity.render-pipelines.core/Editor/LookDev/Renderer.cs:204-262 | From the outcome of any layout: each view is rendered exactly `RenderCount` times. That is once if the layout acquires it with a proper rectangle, and never if it is not acquired or its rectangle is degenerate. |
| Compositing.CaptureThenTwoFrames | com.unity.render-pipelines.core/Editor/LookDev/Renderer.cs:181-231 | After a request, exactly the next frame is captured and the one after it is not. |
| Compositing.RenderTwice | com.unity.render-pipelines.core/Editor/LookDev/Renderer.cs:196-262 | Two frames in a row leave the same compositer and window. The second makes the same calls and renders in the same order, and allocates, destroys, binds and assigns nothing. |
| Compositing.SteadyFrameRepeats | com.unity.render-pipelines.core/Editor/LookDev/Renderer.cs:196-262 | A frame over an unchanged window that finds everything settled repeats the previous frame's calls and renders, and allocates, destroys, binds and assigns nothing. |

## Left out

- `Compositer.Compositing` (Renderer.cs lines 264-352), the blend shader pass. It refers to fields the class does not have and is never called. The model follows the code in delivering no texture for the custom layouts.
- `StageCache.UpdateScene` (Renderer.cs lines 127-140): it clears a stage and instantiates the view's prefab into it. Scene objects have no counterpart in this model. Its branch for missing view content writes through the null reference it has just tested.
- The data-provider calls inside `InitStage` (`GetEnvironmentSetup`, `SetupCamera`) and the copying of render settings. Only whether the override is accepted is a parameter.
- Event wiring and teardown (`EditorApplication.update`, `OnRenderDocAcquisitionTriggered`, `CleanUp`, `Dispose`, the finaliser). `Render` is modelled as being called once per frame.
- `DisplayWindow` UI construction (`OnEnable`, `CreateToolbar`, `CreateViews`, `CreateEnvironment`), and the `OnLayoutChangedInternal` listeners beyond the event itself.
- `RenderPipelineResources.Migration.cs`: it is unrelated to the preview pipeline.
- Texture format, flags and name: a texture is only its identity and its size.
- Single-precision rounding and infinities. Sides are reals and NaN is an explicit case. `Rendering.IsNullArea` is exact for NaN and finite sides; an infinite side is not modelled.
- Sizing.AxisFactorScaledSide: its "a side strictly between 512 and 1024 is stretched to exactly 1024" holds in real arithmetic, not in single precision. For a side of 564, `1024f / 564f * 564f` is 1023.99994, and the `(int)` cast in `UpdateSizeAndLinkToCamera` then gives 1023, not 1024. The same happens for 63 of the integer sides from 513 to 1023. `Sizing.TargetSize` and the render-target sizes built on it inherit the real-valued result.
- Sizing.ScaleFactor: requires both sides to be nonzero, because the source divides by each side. On the render path the degenerate-viewport guard guarantees sides of at least 1, so a zero side never reaches it.
- TextureCache.UpdateSize: requires a rectangle that can be sized (both sides numbers other than zero), for the reason above. In the source this method is not called on the render path.
- Rendering.UpdateSizeAndLinkToCamera: requires a rectangle that can be sized. Its only caller, `BeginRendering`, runs after the degenerate-viewport guard, which ensures it.
- Sizing.TargetSize: states only that the dimensions are nonnegative, not integer bounds against the cap. Those bounds are stated on the real-valued scaled sides in `Sizing.RawScaleFactorCapped` instead.
- RenderDoc's availability (`IsLoaded() && IsSupported()`) is one boolean per frame, used by both checks in `Render`. The model assumes `TEMPORARY_RENDERDOC_INTEGRATION` is defined; without it the behaviour is that of an unavailable capture tool.
- A new stage is taken to have a disabled camera with no target and hidden content. This stands in for the `Stage` constructor and `SetupCamera`, whose code is not part of this model.
- Style class lists are sets of names. Class order is not modelled, and adding a class that is already present changes nothing, as `AddToClassList` does.
- The compositer reads the layout from the same context object that the window's setters edit (`LookDev.currentContext`).
- Display.SetTexture: a texture handle has no destroyed state. Unity compares a destroyed texture equal to null in `image != texture` (DisplayWindow.cs line 263), so delivering null to a view whose image was just destroyed assigns nothing there. The model assigns null and records the assignment. This arises when `RenderCompositeAndOutput` replaces the first view's target in the same frame that it delivers null to `Composite`.

=== FILE: compositer.dfy ===
/**
 `Compositer`: the per-frame driver. Each frame it reads the current layout,
 acquires one or both views through the renderer with the rectangles the
 displayer reports, and hands the results to the displayer. A pending frame-capture
 request brackets the whole frame and is dropped at its end.

 The calls the compositer makes are recorded in the trace: `AcquireCalled` for each
 `Renderer.Acquire` and `TextureDelivered` for each `IDisplayer.SetTexture`.
 */
module Compositing {
  import opened LookDevTypes
  import opened Sizing
  import opened Stages
  import opened Rendering
  import opened Display

  /** The compositer's state: its renderer, the per-view rendering data kept from frame to
      frame, the pending capture request, and the texture identity counter. */
  datatype Compositer = Compositer(
    renderer: Renderer,
    first: RenderingData,
    second: RenderingData,
    captureRequested: bool,
    next: nat)
  {
    /** Each rendering-data slot holds the stage of its own view, and every texture held
        as an output or a camera target was numbered before `next`. */
    ghost predicate Valid()
    {
      && first.stage.camera.view == ViewIndex.First && second.stage.camera.view == ViewIndex.Second
      && Issued(first.output, next) && Issued(first.stage.camera.target, next)
      && Issued(second.output, next) && Issued(second.stage.camera.target, next)
    }

    /** The textures the compositer holds, as outputs or camera targets. */
    function Held(): set<Texture>
    {
      Present(first.output) + Present(first.stage.camera.target) + Present(second.output) + Present(second.stage.camera.target)
    }

    function Data(v: ViewIndex): RenderingData
    {
      match v
      case First => first
      case Second => second
    }

    function WithData(v: ViewIndex, d: RenderingData): (c: Compositer)
      ensures c.Data(v) == d && c.Data(Other(v)) == Data(Other(v))
      ensures c.renderer == renderer && c.captureRequested == captureRequested && c.next == next
    {
      match v
      case First => this.(first := d)
      case Second => this.(second := d)
    }
  }

  /** The texture `t` holds, if any. */
  function Present(t: Option<Texture>): set<Texture>
  {
    if t.Some? then {t.value} else {}
  }

  /** `t`, when present, was numbered before `next`. */
  predicate Issued(t: Option<Texture>, next: nat)
  {
    t.Some? ==> t.value.id < next
  }

  /** The `Compositer` constructor: both stages, rendering data with no output yet, a
      renderer without pixel-perfect rounding, and no capture pending. */
  function NewCompositer(firstAccepted: bool, secondAccepted: bool): (r: Result<Compositer, StageError>)
    ensures r.Success? <==> firstAccepted && secondAccepted
    ensures r.Success? ==>
              && r.value.Valid()
              && !r.value.captureRequested
              && !r.value.renderer.pixelPerfect
              && r.value.first.output.None? && r.value.second.output.None?
  {
    match InitStages(firstAccepted, secondAccepted)
    case Failure(e) => Failure(e)
    case Success(stages) =>
      var zero := Rect(Num(0.0), Num(0.0));
      Success(Compositer(Renderer(false), RenderingData(stages.0, zero, None),
                         RenderingData(stages.1, zero, None), false, 0))
  }

  /** `RenderDocAcquisitionRequested`: the capture button was pressed. */
  function RequestCapture(c: Compositer): (r: Compositer)
    ensures r.captureRequested
    ensures r.(captureRequested := c.captureRequested) == c
  {
    c.(captureRequested := true)
  }

  /** The calls the compositer itself makes: `Renderer.Acquire` and `IDisplayer.SetTexture`. */
  predicate IsCompositerCall(e: Effect)
  {
    e.AcquireCalled? || e.TextureDelivered?
  }

  /** The milestones of a frame: the compositer's calls and the camera renders. */
  predicate IsMilestone(e: Effect)
  {
    IsCompositerCall(e) || e.CameraRendered?
  }

  /** The milestones of a trace, in the order they happened. */
  function Milestones(t: seq<Effect>): seq<Effect>
  {
    if t == [] then []
    else (if IsMilestone(t[0]) then [t[0]] else []) + Milestones(t[1..])
  }

  /** The projection keeps exactly the milestones of the trace. */
  lemma {:induction false} MilestonesMembers(t: seq<Effect>)
    ensures forall e :: e in Milestones(t) <==> e in t && IsMilestone(e)
    decreases |t|
  {
    if t != [] {
      MilestonesMembers(t[1..]);
      assert t == [t[0]] + t[1..];
    }
  }

  /** The projection keeps every occurrence of a milestone, so it counts the renders. */
  lemma {:induction false} MilestonesCount(t: seq<Effect>, e: Effect)
    requires IsMilestone(e)
    ensures multiset(Milestones(t))[e] == multiset(t)[e]
    decreases |t|
  {
    if t != [] {
      MilestonesCount(t[1..], e);
      assert t == [t[0]] + t[1..];
      assert multiset(t) == multiset([t[0]]) + multiset(t[1..]);
    }
  }

  /** The projection distributes over concatenation. */
  lemma {:induction false} MilestonesDistribute(a: seq<Effect>, b: seq<Effect>)
    ensures Milestones(a + b) == Milestones(a) + Milestones(b)
    decreases |a|
  {
    if a != [] {
      assert (a + b)[0] == a[0];
      assert (a + b)[1..] == a[1..] + b;
      MilestonesDistribute(a[1..], b);
    } else {
      assert a + b == b;
    }
  }

  /** A trace with no milestones projects to nothing. */
  lemma NoMilestones(t: seq<Effect>)
    requires forall e :: e in t ==> !IsMilestone(e)
    ensures Milestones(t) == []
  {
    if Milestones(t) != [] {
      MilestonesMembers(t);
      assert Milestones(t)[0] in Milestones(t);
    }
  }

  /** The milestone a view acquired with `rect` contributes: its render, or nothing for
      a degenerate rectangle. */
  function RenderOf(v: ViewIndex, rect: Rect): seq<Effect>
  {
    if IsNullArea(rect) then [] else [CameraRendered(v)]
  }

  /** The views among `{v}` that acquiring `v` with `rect` renders. */
  function Drawn(v: ViewIndex, rect: Rect): set<ViewIndex>
  {
    if IsNullArea(rect) then {} else {v}
  }

  /** One render's trace has exactly one milestone: the render itself. */
  lemma RenderTraceMilestones(t: seq<Effect>, v: ViewIndex, before: Option<Texture>, after: Option<Texture>)
    requires RenderTrace(t, v, before, after)
    ensures Milestones(t) == [CameraRendered(v)]
  {
    var k := |t| - 3;
    forall i | 0 <= i < |t| && i != k
      ensures !IsMilestone(t[i])
    {
      assert IsViewEffect(t[i], v, before, after);
    }
    assert t == t[..k] + [t[k]] + t[k + 1..];
    assert forall e :: e in t[..k] ==> !IsMilestone(e);
    assert forall e :: e in t[k + 1..] ==> !IsMilestone(e);
    NoMilestones(t[..k]);
    NoMilestones(t[k + 1..]);
    MilestonesDistribute(t[..k], [t[k]]);
    MilestonesDistribute(t[..k] + [t[k]], t[k + 1..]);
  }

  /** The milestones of an acquire-then-deliver trace: the calls around what the
      renderer did, whatever the displayer did after. */
  lemma AcquireThenDeliverMilestones(call: Effect, inner: seq<Effect>, delivery: Effect, shown: seq<Effect>)
    requires call.AcquireCalled? && delivery.TextureDelivered?
    requires forall e :: e in inner ==> IsInnerEffect(e)
    requires forall e :: e in shown ==> e.ImageAssigned?
    ensures var t := [call] + inner + [delivery] + shown;
            && Milestones(t) == [call] + Milestones(inner) + [delivery]
            && CaptureBegun !in t && CaptureEnded !in t
  {
    NoMilestones(shown);
    MilestonesDistribute([call], inner);
    MilestonesDistribute([call] + inner, [delivery]);
    MilestonesDistribute([call] + inner + [delivery], shown);
    assert CaptureBegun !in inner && CaptureEnded !in inner;
    assert CaptureBegun !in shown && CaptureEnded !in shown;
  }

  /** The milestones of a trace acquiring twice, then delivering once. */
  lemma TwoAcquiresThenDeliverMilestones(callA: Effect, innerA: seq<Effect>, callB: Effect, innerB: seq<Effect>,
                                         delivery: Effect, shown: seq<Effect>)
    requires callA.AcquireCalled? && callB.AcquireCalled? && delivery.TextureDelivered?
    requires forall e :: e in innerA ==> IsInnerEffect(e)
    requires forall e :: e in innerB ==> IsInnerEffect(e)
    requires forall e :: e in shown ==> e.ImageAssigned?
    ensures var t := [callA] + innerA + [callB] + innerB + [delivery] + shown;
            && Milestones(t) == [callA] + Milestones(innerA) + [callB] + Milestones(innerB) + [delivery]
            && CaptureBegun !in t && CaptureEnded !in t
  {
    var t := [callA] + innerA + [callB] + innerB + [delivery] + shown;
    var tail := [callB] + innerB + [delivery] + shown;
    assert t == [callA] + innerA + tail;
    MilestonesDistribute([callA], innerA);
    MilestonesDistribute([callA] + innerA, tail);
    AcquireThenDeliverMilestones(callB, innerB, delivery, shown);
    assert CaptureBegun !in innerA && CaptureEnded !in innerA;
  }

  /** What acquiring a view with `rect` leaves in its rendering data: that viewport, and
      then no output for a degenerate rectangle, otherwise a target of the size the
      rectangle calls for, bound to the camera, with the camera disabled and the content
      hidden again. */
  ghost predicate Settled(d: RenderingData, rect: Rect, renderer: Renderer, pixelsPerPoint: real)
  {
    && d.viewPort == rect
    && if IsNullArea(rect) then d.output.None?
       else
         && Fits(d.output, TargetSizeOf(rect, pixelsPerPoint, renderer.pixelPerfect))
         && d.stage.camera.target == d.output
         && !d.stage.camera.enabled && !d.stage.contentVisible
  }

  /** For a proper rectangle, the target is kept exactly when it already fits. */
  ghost predicate KeptIffFits(before: Option<Texture>, after: Option<Texture>, rect: Rect,
                              renderer: Renderer, pixelsPerPoint: real)
  {
    !IsNullArea(rect) ==> (after == before <==> Fits(before, TargetSizeOf(rect, pixelsPerPoint, renderer.pixelPerfect)))
  }

  /** View `v` was acquired with `rect` on the way from `c` to `a`. */
  ghost predicate AcquiredWith(c: Compositer, a: Compositer, v: ViewIndex, rect: Rect, pixelsPerPoint: real)
  {
    && Settled(a.Data(v), rect, c.renderer, pixelsPerPoint)
    && KeptIffFits(c.Data(v).output, a.Data(v).output, rect, c.renderer, pixelsPerPoint)
  }

  /** 1 when `after` is a target that replaced `before`, 0 otherwise. */
  function Fresh(before: Option<Texture>, after: Option<Texture>): nat
  {
    if after.Some? && after != before then 1 else 0
  }

  /** Each new target, the first view's before the second's, takes the next identity,
      and the counter advances by the number of new targets. */
  ghost predicate Counted(c: Compositer, a: Compositer)
  {
    var n1, n2 := Fresh(c.first.output, a.first.output), Fresh(c.second.output, a.second.output);
    && a.next == c.next + n1 + n2
    && (n1 == 1 ==> a.first.output.value.id == c.next)
    && (n2 == 1 ==> a.second.output.value.id == c.next + n1)
  }

  /** The trace of acquiring a view that is already settled for `rect`. */
  function SteadyAcquire(v: ViewIndex, rect: Rect): (t: seq<Effect>)
    ensures forall e :: e in t ==> e.ContentVisible? || e.CameraEnabled? || e.CameraRendered?
    ensures Milestones(t) == RenderOf(v, rect)
  {
    if IsNullArea(rect) then [] else SteadyBracketMilestones(v); SteadyBracket(v)
  }

  /** The bracket of a render with no target work has the render as its one milestone. */
  lemma SteadyBracketMilestones(v: ViewIndex)
    ensures Milestones(SteadyBracket(v)) == [CameraRendered(v)]
  {
    var t := SteadyBracket(v);
    assert t[4..][1..] == [];
    assert Milestones(t[4..]) == [];
    assert t[3..][1..] == t[4..];
    assert Milestones(t[3..]) == [];
    assert t[2..][1..] == t[3..];
    assert Milestones(t[2..]) == [CameraRendered(v)];
    assert t[1..][1..] == t[2..];
    assert Milestones(t[1..]) == [CameraRendered(v)];
  }

  /** A new target of `a` is none of the textures `c` held: its identity was never
      issued before. */
  lemma NewTargetsAreUnheld(c: Compositer, a: Compositer, v: ViewIndex)
    requires c.Valid() && Counted(c, a)
    requires Fresh(c.Data(v).output, a.Data(v).output) == 1
    ensures a.Data(v).output.value !in c.Held()
  {
  }

  /** A frame's result: the compositer, the window, and what happened, in order. */
  datatype Frame = Frame(compositer: Compositer, window: Window, effects: seq<Effect>)

  /** What a frame from `c` may do: call the renderer or the displayer, assign to a view
      in `shown` the image it ends up showing, or render a view in `acquired` while its
      target goes from its value in `c` to its value after the frame. */
  ghost predicate IsFrameEffect(e: Effect, c: Compositer, f: Frame, acquired: set<ViewIndex>, shown: set<ViewIndex>)
  {
    || IsCompositerCall(e)
    || (e.ImageAssigned? && e.view in shown && e.image == f.window.View(e.view).image)
    || (ViewIndex.First in acquired && IsViewEffect(e, ViewIndex.First, c.first.output, f.compositer.first.output))
    || (ViewIndex.Second in acquired && IsViewEffect(e, ViewIndex.Second, c.second.output, f.compositer.second.output))
  }

  /** `renderer.Acquire(data[index])` after its viewport is set to `rect`: only that
      view's data and the counter change, a fitting target is reused, and the trace is
      empty for a degenerate rectangle and otherwise one render of that view; a view
      already settled for `rect` is left as it is. */
  method AcquireView(c: Compositer, index: ViewIndex, rect: Rect, pixelsPerPoint: real)
    returns (a: Compositer, effects: seq<Effect>)
    requires c.Valid()
    ensures a.Valid()
    ensures a.Data(Other(index)) == c.Data(Other(index))
    ensures a.renderer == c.renderer && a.captureRequested == c.captureRequested
    ensures AcquiredWith(c, a, index, rect, pixelsPerPoint)
    ensures Counted(c, a)
    ensures forall e :: e in effects ==> IsInnerEffect(e) && IsViewEffect(e, index, c.Data(index).output, a.Data(index).output)
    ensures IsNullArea(rect) ==> effects == []
    ensures !IsNullArea(rect) ==> RenderTrace(effects, index, c.Data(index).output, a.Data(index).output)
    ensures Milestones(effects) == RenderOf(index, rect)
    ensures Settled(c.Data(index), rect, c.renderer, pixelsPerPoint) ==>
              a == c && effects == SteadyAcquire(index, rect)
  {
    var step := Acquire(c.renderer, c.Data(index).(viewPort := rect), c.next, pixelsPerPoint);
    a := c.WithData(index, step.data).(next := step.next);
    effects := step.effects;
    ViewAcquired(c, index, rect, pixelsPerPoint, step);
  }

  /** What one `Acquire` of view `index` with `rect` does to the compositer holding it. */
  lemma ViewAcquired(c: Compositer, index: ViewIndex, rect: Rect, pixelsPerPoint: real, step: AcquireStep)
    requires c.Valid()
    requires var d := c.Data(index).(viewPort := rect);
             && (IsNullArea(d.viewPort) ==> step == AcquireStep(d.(output := None), c.next, []))
             && (!IsNullArea(d.viewPort) ==>
                   && step.data.viewPort == d.viewPort
                   && Fits(step.data.output, TargetSizeOf(d.viewPort, pixelsPerPoint, c.renderer.pixelPerfect))
                   && (step.data.output != d.output <==> !Fits(d.output, TargetSizeOf(d.viewPort, pixelsPerPoint, c.renderer.pixelPerfect)))
                   && (step.data.output != d.output ==> step.data.output.value.id == c.next && step.next == c.next + 1)
                   && (step.data.output == d.output ==> step.next == c.next)
                   && step.data.stage == d.stage.(camera := d.stage.camera.(enabled := false, target := step.data.output),
                                                  contentVisible := false)
                   && RenderTrace(step.effects, d.stage.camera.view, d.output, step.data.output))
             && (!IsNullArea(d.viewPort) && Fits(d.output, TargetSizeOf(d.viewPort, pixelsPerPoint, c.renderer.pixelPerfect)) &&
                 d.stage.camera.target == d.output ==>
                   step.effects == SteadyBracket(d.stage.camera.view))
             && (!IsNullArea(d.viewPort) && Fits(d.output, TargetSizeOf(d.viewPort, pixelsPerPoint, c.renderer.pixelPerfect)) &&
                 d.stage.camera.target == d.output && !d.stage.camera.enabled && !d.stage.contentVisible ==>
                   step.data == d && step.next == c.next)
             && (forall e :: e in step.effects ==> IsViewEffect(e, d.stage.camera.view, d.output, step.data.output))
    ensures var a := c.WithData(index, step.data).(next := step.next);
            && a.Valid()
            && a.Data(Other(index)) == c.Data(Other(index))
            && a.renderer == c.renderer && a.captureRequested == c.captureRequested
            && AcquiredWith(c, a, index, rect, pixelsPerPoint)
            && Counted(c, a)
            && (forall e :: e in step.effects ==> IsInnerEffect(e) && IsViewEffect(e, index, c.Data(index).output, a.Data(index).output))
            && (IsNullArea(rect) ==> step.effects == [])
            && (!IsNullArea(rect) ==> RenderTrace(step.effects, index, c.Data(index).output, a.Data(index).output))
            && Milestones(step.effects) == RenderOf(index, rect)
            && (Settled(c.Data(index), rect, c.renderer, pixelsPerPoint) ==>
                  a == c && step.effects == SteadyAcquire(index, rect))
  {
    var d := c.Data(index);
    var a := c.WithData(index, step.data).(next := step.next);
    assert a.Data(index) == step.data && a.Data(Other(index)) == c.Data(Other(index));
    assert d.stage.camera.view == index;
    AcquireTraceOfView(index, rect, d.output, step);
    if Settled(d, rect, c.renderer, pixelsPerPoint) {
      assert d.(viewPort := rect) == d;
      match index
      case First => assert a == c;
      case Second => assert a == c;
    }
  }

  /** The trace of one `Acquire` of view `index` with `rect`: nothing for a degenerate
      rectangle, otherwise one render of that view, and in either case effects of that
      view only. */
  lemma AcquireTraceOfView(index: ViewIndex, rect: Rect, before: Option<Texture>, step: AcquireStep)
    requires IsNullArea(rect) ==> step.effects == []
    requires !IsNullArea(rect) ==> RenderTrace(step.effects, index, before, step.data.output)
    requires forall e :: e in step.effects ==> IsViewEffect(e, index, before, step.data.output)
    ensures forall e :: e in step.effects ==> IsInnerEffect(e)
    ensures Milestones(step.effects) == RenderOf(index, rect)
  {
    if !IsNullArea(rect) {
      RenderTraceMilestones(step.effects, index, before, step.data.output);
    }
  }

  /** The window keeps its layout context, its classes and its view rectangles. */
  ghost predicate SameLayoutAndRects(w: Window, w': Window)
  {
    && w'.context == w.context
    && w'.viewClasses == w.viewClasses
    && w'.mainClasses == w.mainClasses
    && w'.firstView.contentRect == w.firstView.contentRect
    && w'.secondView.contentRect == w.secondView.contentRect
  }

  /** The milestones of a frame showing one view: its acquisition, its render when its
      rectangle is proper, and the delivery of its target. */
  function SingleMilestones(v: ViewIndex, rect: Rect, output: Option<Texture>): seq<Effect>
  {
    [AcquireCalled(v, rect)] + RenderOf(v, rect) + [TextureDelivered(AsCompositionIndex(v), output)]
  }

  /** `Compositer.RenderSingleAndOutput`: acquire one view with its own rectangle and
      show the result at that view's index. */
  method RenderSingleAndOutput(c: Compositer, w: Window, index: ViewIndex, pixelsPerPoint: real)
    returns (f: Frame)
    requires c.Valid()
    ensures f.compositer.Valid()
    ensures f.compositer.Data(Other(index)) == c.Data(Other(index))
    ensures f.compositer.renderer == c.renderer && f.compositer.captureRequested == c.captureRequested
    ensures AcquiredWith(c, f.compositer, index, GetRect(w, AsCompositionIndex(index)), pixelsPerPoint)
    ensures Counted(c, f.compositer)
    ensures Milestones(f.effects) == SingleMilestones(index, GetRect(w, AsCompositionIndex(index)), f.compositer.Data(index).output)
    ensures forall e :: e in f.effects ==>
              IsFrameEffect(e, c, f, Drawn(index, GetRect(w, AsCompositionIndex(index))), {index})
    ensures f.window.View(index).image == f.compositer.Data(index).output
    ensures f.window.View(Other(index)) == w.View(Other(index))
    ensures SameLayoutAndRects(w, f.window)
    ensures CaptureBegun !in f.effects && CaptureEnded !in f.effects
    ensures var rect := GetRect(w, AsCompositionIndex(index));
            Settled(c.Data(index), rect, c.renderer, pixelsPerPoint) && w.View(index).image == c.Data(index).output ==>
              f == Frame(c, w, SingleSteady(index, rect, c.Data(index).output))
  {
    var ci := AsCompositionIndex(index);
    var rect := GetRect(w, ci);
    var acquired, inner := AcquireView(c, index, rect, pixelsPerPoint);
    var shown := SetTexture(w, ci, acquired.Data(index).output);
    f := Frame(acquired, shown.window, [AcquireCalled(index, rect)] + inner
                                       + [TextureDelivered(ci, acquired.Data(index).output)] + shown.effects);
    AcquiredThenShown(c, w, index, pixelsPerPoint, acquired, inner, shown);
  }

  /** A single view's frame, from the acquisition of the view and the delivery of its
      target to the window. */
  lemma AcquiredThenShown(c: Compositer, w: Window, index: ViewIndex, pixelsPerPoint: real,
                          acquired: Compositer, inner: seq<Effect>, shown: DisplayStep)
    requires var rect := GetRect(w, AsCompositionIndex(index));
             && AcquiredWith(c, acquired, index, rect, pixelsPerPoint)
             && (forall e :: e in inner ==> IsInnerEffect(e) && IsViewEffect(e, index, c.Data(index).output, acquired.Data(index).output))
             && (IsNullArea(rect) ==> inner == [])
             && Milestones(inner) == RenderOf(index, rect)
             && (Settled(c.Data(index), rect, c.renderer, pixelsPerPoint) ==>
                   acquired == c && inner == SteadyAcquire(index, rect))
    requires var t, ci := acquired.Data(index).output, AsCompositionIndex(index);
             && shown.window.View(ShownOn(ci)).image == t
             && shown.window.View(ShownOn(ci)).contentRect == w.View(ShownOn(ci)).contentRect
             && shown.window.View(Other(ShownOn(ci))) == w.View(Other(ShownOn(ci)))
             && shown.window.context == w.context
             && shown.window.viewClasses == w.viewClasses && shown.window.mainClasses == w.mainClasses
             && (w.View(ShownOn(ci)).image == t ==> shown == DisplayStep(w, []))
             && (w.View(ShownOn(ci)).image != t ==> shown.effects == [ImageAssigned(ShownOn(ci), t)])
    ensures var rect, ci := GetRect(w, AsCompositionIndex(index)), AsCompositionIndex(index);
            var f := Frame(acquired, shown.window, [AcquireCalled(index, rect)] + inner
                                                   + [TextureDelivered(ci, acquired.Data(index).output)] + shown.effects);
            && Milestones(f.effects) == SingleMilestones(index, rect, f.compositer.Data(index).output)
            && (forall e :: e in f.effects ==> IsFrameEffect(e, c, f, Drawn(index, rect), {index}))
            && f.window.View(index).image == f.compositer.Data(index).output
            && f.window.View(Other(index)) == w.View(Other(index))
            && SameLayoutAndRects(w, f.window)
            && CaptureBegun !in f.effects && CaptureEnded !in f.effects
            && (Settled(c.Data(index), rect, c.renderer, pixelsPerPoint) && w.View(index).image == c.Data(index).output ==>
                  f == Frame(c, w, SingleSteady(index, rect, c.Data(index).output)))
  {
    var ci := AsCompositionIndex(index);
    var rect := GetRect(w, ci);
    var texture := acquired.Data(index).output;
    if Settled(c.Data(index), rect, c.renderer, pixelsPerPoint) && w.View(index).image == c.Data(index).output {
      SteadySingleFrame(c, w, index, rect, inner, shown);
    }
    assert ShownOn(ci) == index;
    AcquireThenDeliverMilestones(AcquireCalled(index, rect), inner, TextureDelivered(ci, texture), shown.effects);
    var f := Frame(acquired, shown.window, [AcquireCalled(index, rect)] + inner + [TextureDelivered(ci, texture)] + shown.effects);
    SingleFrameEffects(c, f, index, Drawn(index, rect), AcquireCalled(index, rect), inner, TextureDelivered(ci, texture), shown.effects);
  }

  /** A settled view whose image already shows its target: the frame is the steady one. */
  lemma SteadySingleFrame(c: Compositer, w: Window, index: ViewIndex, rect: Rect, inner: seq<Effect>, shown: DisplayStep)
    requires inner == SteadyAcquire(index, rect)
    requires shown == DisplayStep(w, [])
    ensures var t := c.Data(index).output;
            Frame(c, shown.window, [AcquireCalled(index, rect)] + inner + [TextureDelivered(AsCompositionIndex(index), t)]
                                   + shown.effects)
            == Frame(c, w, SingleSteady(index, rect, t))
  {
  }

  /** Every effect of a single view's frame is a call, the view's own target work and
      render when it is among the `drawn` views, or the assignment of its image. */
  lemma SingleFrameEffects(c: Compositer, f: Frame, index: ViewIndex, drawn: set<ViewIndex>, call: Effect,
                           inner: seq<Effect>, delivery: Effect, shown: seq<Effect>)
    requires IsCompositerCall(call) && IsCompositerCall(delivery)
    requires forall e :: e in inner ==> index in drawn && IsViewEffect(e, index, c.Data(index).output, f.compositer.Data(index).output)
    requires forall e :: e in shown ==> e == ImageAssigned(index, f.window.View(index).image)
    requires f.effects == [call] + inner + [delivery] + shown
    ensures forall e :: e in f.effects ==> IsFrameEffect(e, c, f, drawn, {index})
  {
    forall e | e in f.effects
      ensures IsFrameEffect(e, c, f, drawn, {index})
    {
      if e in inner {
        match index
        case First =>
        case Second =>
      }
    }
  }

  /** What a frame that finds everything settled does: calls, show and hide the
      stage, switch the camera, and render. */
  predicate IsSteadyEffect(e: Effect)
  {
    IsCompositerCall(e) || e.ContentVisible? || e.CameraEnabled? || e.CameraRendered?
  }

  /** Joining two traces of steady effects. */
  lemma SteadyJoin(a: seq<Effect>, b: seq<Effect>)
    requires forall e :: e in a ==> IsSteadyEffect(e)
    requires forall e :: e in b ==> IsSteadyEffect(e)
    ensures forall e :: e in a + b ==> IsSteadyEffect(e)
  {
  }

  /** The trace of a single view frame whose view is settled and already shown. */
  function SingleSteady(v: ViewIndex, rect: Rect, output: Option<Texture>): (t: seq<Effect>)
    ensures Milestones(t) == SingleMilestones(v, rect, output)
    ensures forall e :: e in t ==> IsSteadyEffect(e)
  {
    var call, delivery := AcquireCalled(v, rect), TextureDelivered(AsCompositionIndex(v), output);
    var a := SteadyAcquire(v, rect);
    var t := [call] + a + [delivery];
    AcquireThenDeliverMilestones(call, a, delivery, []);
    assert t == t + [];
    SteadyJoin([call], a);
    SteadyJoin([call] + a, [delivery]);
    t
  }

  /** The milestones of the custom layouts' frame: both views acquired, and rendered
      when the rectangle is proper, before nothing is delivered to `Composite`. */
  function CompositeMilestones(rect: Rect): seq<Effect>
  {
    [AcquireCalled(ViewIndex.First, rect)] + RenderOf(ViewIndex.First, rect)
    + [AcquireCalled(ViewIndex.Second, rect)] + RenderOf(ViewIndex.Second, rect)
    + [TextureDelivered(ViewCompositionIndex.Composite, None)]
  }

  /** `Compositer.RenderCompositeAndOutput`: acquire both views, first then second, with
      the composite rectangle. The blend itself is not implemented in the compositer:
      the composite index is handed no texture. */
  method RenderCompositeAndOutput(c: Compositer, w: Window, pixelsPerPoint: real) returns (f: Frame)
    requires c.Valid()
    ensures f.compositer.Valid()
    ensures f.compositer.renderer == c.renderer && f.compositer.captureRequested == c.captureRequested
    ensures AcquiredWith(c, f.compositer, ViewIndex.First, GetRect(w, ViewCompositionIndex.Composite), pixelsPerPoint)
    ensures AcquiredWith(c, f.compositer, ViewIndex.Second, GetRect(w, ViewCompositionIndex.Composite), pixelsPerPoint)
    ensures Counted(c, f.compositer)
    ensures Milestones(f.effects) == CompositeMilestones(GetRect(w, ViewCompositionIndex.Composite))
    ensures var rect := GetRect(w, ViewCompositionIndex.Composite);
            forall e :: e in f.effects ==>
              IsFrameEffect(e, c, f, Drawn(ViewIndex.First, rect) + Drawn(ViewIndex.Second, rect), {ViewIndex.First})
    ensures f.window.firstView.image == None
    ensures f.window.secondView == w.secondView
    ensures SameLayoutAndRects(w, f.window)
    ensures CaptureBegun !in f.effects && CaptureEnded !in f.effects
    ensures var rect := GetRect(w, ViewCompositionIndex.Composite);
            Settled(c.first, rect, c.renderer, pixelsPerPoint) && Settled(c.second, rect, c.renderer, pixelsPerPoint)
            && w.firstView.image == None ==>
              f == Frame(c, w, CompositeSteady(rect))
  {
    var rect := GetRect(w, ViewCompositionIndex.Composite);
    var b, innerA, innerB := AcquireBoth(c, rect, pixelsPerPoint);
    var compound: Option<Texture> := None;
    var shown := SetTexture(w, ViewCompositionIndex.Composite, compound);
    var callA := AcquireCalled(ViewIndex.First, rect);
    var callB := AcquireCalled(ViewIndex.Second, rect);
    var delivery := TextureDelivered(ViewCompositionIndex.Composite, compound);
    TwoAcquiresThenDeliverMilestones(callA, innerA, callB, innerB, delivery, shown.effects);
    f := Frame(b, shown.window, [callA] + innerA + [callB] + innerB + [delivery] + shown.effects);
    CompositeFrameEffects(c, f, Drawn(ViewIndex.First, rect) + Drawn(ViewIndex.Second, rect),
                          callA, innerA, callB, innerB, delivery, shown.effects);
  }

  /** Both views acquired for one rectangle, first then second, as the composite
      layout does before compositing. */
  method AcquireBoth(c: Compositer, rect: Rect, pixelsPerPoint: real)
    returns (b: Compositer, innerA: seq<Effect>, innerB: seq<Effect>)
    requires c.Valid()
    ensures b.Valid()
    ensures b.renderer == c.renderer && b.captureRequested == c.captureRequested
    ensures AcquiredWith(c, b, ViewIndex.First, rect, pixelsPerPoint)
    ensures AcquiredWith(c, b, ViewIndex.Second, rect, pixelsPerPoint)
    ensures Counted(c, b)
    ensures forall e :: e in innerA ==> IsInnerEffect(e) && IsViewEffect(e, ViewIndex.First, c.first.output, b.first.output)
    ensures forall e :: e in innerB ==> IsInnerEffect(e) && IsViewEffect(e, ViewIndex.Second, c.second.output, b.second.output)
    ensures IsNullArea(rect) ==> innerA == [] && innerB == []
    ensures !IsNullArea(rect) ==>
              && RenderTrace(innerA, ViewIndex.First, c.first.output, b.first.output)
              && RenderTrace(innerB, ViewIndex.Second, c.second.output, b.second.output)
    ensures Milestones(innerA) == RenderOf(ViewIndex.First, rect)
    ensures Milestones(innerB) == RenderOf(ViewIndex.Second, rect)
    ensures Settled(c.first, rect, c.renderer, pixelsPerPoint) && Settled(c.second, rect, c.renderer, pixelsPerPoint) ==>
              b == c && innerA == SteadyAcquire(ViewIndex.First, rect) && innerB == SteadyAcquire(ViewIndex.Second, rect)
  {
    var a;
    a, innerA := AcquireView(c, ViewIndex.First, rect, pixelsPerPoint);
    b, innerB := AcquireView(a, ViewIndex.Second, rect, pixelsPerPoint);
    CountedChain(c, a, b);
  }

  /** Acquiring the first view and then the second counts the new targets in that order. */
  lemma CountedChain(c: Compositer, a: Compositer, b: Compositer)
    requires a.second == c.second && b.first == a.first
    requires Counted(c, a) && Counted(a, b)
    ensures Counted(c, b)
  {
  }

  /** The effects of a composite frame: calls, the render effects of each view among
      the `drawn` ones, and clearing the first view's image. */
  lemma CompositeFrameEffects(c: Compositer, f: Frame, drawn: set<ViewIndex>, callA: Effect, innerA: seq<Effect>,
                              callB: Effect, innerB: seq<Effect>, delivery: Effect, shown: seq<Effect>)
    requires IsCompositerCall(callA) && IsCompositerCall(callB) && IsCompositerCall(delivery)
    requires forall e :: e in innerA ==> ViewIndex.First in drawn && IsViewEffect(e, ViewIndex.First, c.first.output, f.compositer.first.output)
    requires forall e :: e in innerB ==> ViewIndex.Second in drawn && IsViewEffect(e, ViewIndex.Second, c.second.output, f.compositer.second.output)
    requires forall e :: e in shown ==> e == ImageAssigned(ViewIndex.First, f.window.firstView.image)
    requires f.effects == [callA] + innerA + [callB] + innerB + [delivery] + shown
    ensures forall e :: e in f.effects ==> IsFrameEffect(e, c, f, drawn, {ViewIndex.First})
  {
  }

  /** The trace of a composite frame whose views are both settled and whose first view
      already shows nothing. */
  function CompositeSteady(rect: Rect): (t: seq<Effect>)
    ensures Milestones(t) == CompositeMilestones(rect)
    ensures forall e :: e in t ==> IsSteadyEffect(e)
  {
    var callA, callB := AcquireCalled(ViewIndex.First, rect), AcquireCalled(ViewIndex.Second, rect);
    var delivery := TextureDelivered(ViewCompositionIndex.Composite, None);
    var a, b := SteadyAcquire(ViewIndex.First, rect), SteadyAcquire(ViewIndex.Second, rect);
    var t := [callA] + a + [callB] + b + [delivery];
    TwoAcquiresThenDeliverMilestones(callA, a, callB, b, delivery, []);
    assert t == t + [];
    SteadyJoin([callA], a);
    SteadyJoin([callA] + a, [callB]);
    SteadyJoin([callA] + a + [callB], b);
    SteadyJoin([callA] + a + [callB] + b, [delivery]);
    t
  }

  /** The side-by-side layouts: each view acquired with its own rectangle and shown
      on its own image, first then second. */
  method RenderBothSingles(c: Compositer, w: Window, pixelsPerPoint: real) returns (f: Frame)
    requires c.Valid()
    ensures f.compositer.Valid()
    ensures f.compositer.renderer == c.renderer && f.compositer.captureRequested == c.captureRequested
    ensures AcquiredWith(c, f.compositer, ViewIndex.First, GetRect(w, ViewCompositionIndex.First), pixelsPerPoint)
    ensures AcquiredWith(c, f.compositer, ViewIndex.Second, GetRect(w, ViewCompositionIndex.Second), pixelsPerPoint)
    ensures Counted(c, f.compositer)
    ensures Milestones(f.effects) == SingleMilestones(ViewIndex.First, GetRect(w, ViewCompositionIndex.First), f.compositer.first.output)
                                     + SingleMilestones(ViewIndex.Second, GetRect(w, ViewCompositionIndex.Second), f.compositer.second.output)
    ensures var r1, r2 := GetRect(w, ViewCompositionIndex.First), GetRect(w, ViewCompositionIndex.Second);
            forall e :: e in f.effects ==>
              IsFrameEffect(e, c, f, Drawn(ViewIndex.First, r1) + Drawn(ViewIndex.Second, r2), {ViewIndex.First, ViewIndex.Second})
    ensures f.window.firstView.image == f.compositer.first.output
    ensures f.window.secondView.image == f.compositer.second.output
    ensures SameLayoutAndRects(w, f.window)
    ensures CaptureBegun !in f.effects && CaptureEnded !in f.effects
    ensures var r1, r2 := GetRect(w, ViewCompositionIndex.First), GetRect(w, ViewCompositionIndex.Second);
            && Settled(c.first, r1, c.renderer, pixelsPerPoint) && w.firstView.image == c.first.output
            && Settled(c.second, r2, c.renderer, pixelsPerPoint) && w.secondView.image == c.second.output ==>
              f == Frame(c, w, SingleSteady(ViewIndex.First, r1, c.first.output)
                               + SingleSteady(ViewIndex.Second, r2, c.second.output))
  {
    var f1 := RenderSingleAndOutput(c, w, ViewIndex.First, pixelsPerPoint);
    var f2 := RenderSingleAndOutput(f1.compositer, f1.window, ViewIndex.Second, pixelsPerPoint);
    f := Frame(f2.compositer, f2.window, f1.effects + f2.effects);
    SinglesInSequence(c, w, pixelsPerPoint, f1, f2);
  }

  /** The split layouts' frame, from the frames of its two single-view halves. */
  lemma SinglesInSequence(c: Compositer, w: Window, pixelsPerPoint: real, f1: Frame, f2: Frame)
    requires var index, ci := ViewIndex.First, AsCompositionIndex(ViewIndex.First);
             && f1.compositer.Data(Other(index)) == c.Data(Other(index))
             && f1.compositer.renderer == c.renderer
             && AcquiredWith(c, f1.compositer, index, GetRect(w, ci), pixelsPerPoint)
             && Counted(c, f1.compositer)
             && Milestones(f1.effects) == SingleMilestones(index, GetRect(w, ci), f1.compositer.Data(index).output)
             && (forall e :: e in f1.effects ==> IsFrameEffect(e, c, f1, Drawn(index, GetRect(w, ci)), {index}))
             && f1.window.View(index).image == f1.compositer.Data(index).output
             && SameLayoutAndRects(w, f1.window)
             && CaptureBegun !in f1.effects && CaptureEnded !in f1.effects
             && (Settled(c.Data(index), GetRect(w, ci), c.renderer, pixelsPerPoint) && w.View(index).image == c.Data(index).output ==>
                   f1 == Frame(c, w, SingleSteady(index, GetRect(w, ci), c.Data(index).output)))
    requires var index, ci, c, w := ViewIndex.Second, AsCompositionIndex(ViewIndex.Second), f1.compositer, f1.window;
             && f2.compositer.Data(Other(index)) == c.Data(Other(index))
             && f2.compositer.renderer == c.renderer
             && AcquiredWith(c, f2.compositer, index, GetRect(w, ci), pixelsPerPoint)
             && Counted(c, f2.compositer)
             && Milestones(f2.effects) == SingleMilestones(index, GetRect(w, ci), f2.compositer.Data(index).output)
             && (forall e :: e in f2.effects ==> IsFrameEffect(e, c, f2, Drawn(index, GetRect(w, ci)), {index}))
             && f2.window.View(index).image == f2.compositer.Data(index).output
             && f2.window.View(Other(index)) == w.View(Other(index))
             && SameLayoutAndRects(w, f2.window)
             && CaptureBegun !in f2.effects && CaptureEnded !in f2.effects
             && (Settled(c.Data(index), GetRect(w, ci), c.renderer, pixelsPerPoint) && w.View(index).image == c.Data(index).output ==>
                   f2 == Frame(c, w, SingleSteady(index, GetRect(w, ci), c.Data(index).output)))
    ensures var f := Frame(f2.compositer, f2.window, f1.effects + f2.effects);
            var r1, r2 := GetRect(w, ViewCompositionIndex.First), GetRect(w, ViewCompositionIndex.Second);
            && AcquiredWith(c, f.compositer, ViewIndex.First, r1, pixelsPerPoint)
            && AcquiredWith(c, f.compositer, ViewIndex.Second, r2, pixelsPerPoint)
            && Counted(c, f.compositer)
            && Milestones(f.effects) == SingleMilestones(ViewIndex.First, r1, f.compositer.first.output)
                                        + SingleMilestones(ViewIndex.Second, r2, f.compositer.second.output)
            && (forall e :: e in f.effects ==>
                  IsFrameEffect(e, c, f, Drawn(ViewIndex.First, r1) + Drawn(ViewIndex.Second, r2), {ViewIndex.First, ViewIndex.Second}))
            && f.window.firstView.image == f.compositer.first.output
            && f.window.secondView.image == f.compositer.second.output
            && SameLayoutAndRects(w, f.window)
            && CaptureBegun !in f.effects && CaptureEnded !in f.effects
            && (Settled(c.first, r1, c.renderer, pixelsPerPoint) && w.firstView.image == c.first.output
                && Settled(c.second, r2, c.renderer, pixelsPerPoint) && w.secondView.image == c.second.output ==>
                  f == Frame(c, w, SingleSteady(ViewIndex.First, r1, c.first.output)
                                   + SingleSteady(ViewIndex.Second, r2, c.second.output)))
  {
    var r1, r2 := GetRect(w, ViewCompositionIndex.First), GetRect(w, ViewCompositionIndex.Second);
    assert AsCompositionIndex(ViewIndex.First) == ViewCompositionIndex.First;
    assert AsCompositionIndex(ViewIndex.Second) == ViewCompositionIndex.Second;
    assert GetRect(f1.window, ViewCompositionIndex.Second) == r2;
    assert f1.compositer.second == c.second && f2.compositer.first == f1.compositer.first;
    MilestonesDistribute(f1.effects, f2.effects);
    FirstThenSecond(c, f1, f2, Drawn(ViewIndex.First, r1), Drawn(ViewIndex.Second, r2),
                    {ViewIndex.First}, {ViewIndex.First, ViewIndex.Second});
  }

  /** A frame for the first view followed by one for the second is a frame for both:
      each view's effects concern the target it had before the pair, and the second
      view's new target takes its identity after the first's. */
  lemma FirstThenSecond(c: Compositer, f1: Frame, f2: Frame, drawn1: set<ViewIndex>, drawn2: set<ViewIndex>,
                        shownBefore: set<ViewIndex>, shown: set<ViewIndex>)
    requires drawn1 <= {ViewIndex.First} && drawn2 <= {ViewIndex.Second}
    requires shownBefore <= shown && ViewIndex.Second in shown
    requires f1.compositer.second == c.second && f2.compositer.first == f1.compositer.first
    requires forall v :: v in shownBefore ==> f2.window.View(v).image == f1.window.View(v).image
    requires Counted(c, f1.compositer) && Counted(f1.compositer, f2.compositer)
    requires forall e :: e in f1.effects ==> IsFrameEffect(e, c, f1, drawn1, shownBefore)
    requires forall e :: e in f2.effects ==> IsFrameEffect(e, f1.compositer, f2, drawn2, {ViewIndex.Second})
    ensures Counted(c, f2.compositer)
    ensures var f := Frame(f2.compositer, f2.window, f1.effects + f2.effects);
            forall e :: e in f.effects ==> IsFrameEffect(e, c, f, drawn1 + drawn2, shown)
  {
    var f := Frame(f2.compositer, f2.window, f1.effects + f2.effects);
    forall e | e in f.effects
      ensures IsFrameEffect(e, c, f, drawn1 + drawn2, shown)
    {
      if e in f1.effects {
        assert IsFrameEffect(e, c, f1, drawn1, shownBefore);
      } else {
        assert IsFrameEffect(e, f1.compositer, f2, drawn2, {ViewIndex.Second});
      }
    }
  }

  /** What a frame does for each layout: the compositer's calls and the camera renders in
      order, the rectangle each acquired view is settled for, which view image shows
      what, and that every other effect renders a view acquired with a proper rectangle
      or assigns a shown image. A single view leaves the other view's rendering data and
      image alone; the custom layouts acquire both views with the composite rectangle and
      clear the first view's image. In every layout the identity counter moves by the
      targets replaced. */
  ghost predicate LayoutOutcome(c: Compositer, w: Window, pixelsPerPoint: real, f: Frame)
  {
    var r1, r2, rc := GetRect(w, ViewCompositionIndex.First), GetRect(w, ViewCompositionIndex.Second),
                      GetRect(w, ViewCompositionIndex.Composite);
    var first, second := f.compositer.first, f.compositer.second;
    && Milestones(f.effects) == FrameMilestones(f.compositer, w)
    && Counted(c, f.compositer)
    && match w.context.viewLayout
       case FullFirstView =>
         && AcquiredWith(c, f.compositer, ViewIndex.First, r1, pixelsPerPoint)
         && Framed(c, f, Drawn(ViewIndex.First, r1), {ViewIndex.First})
         && second == c.second
         && f.window.firstView.image == first.output
         && f.window.secondView == w.secondView
       case FullSecondView =>
         && AcquiredWith(c, f.compositer, ViewIndex.Second, r2, pixelsPerPoint)
         && Framed(c, f, Drawn(ViewIndex.Second, r2), {ViewIndex.Second})
         && first == c.first
         && f.window.secondView.image == second.output
         && f.window.firstView == w.firstView
       case HorizontalSplit | VerticalSplit =>
         && AcquiredWith(c, f.compositer, ViewIndex.First, r1, pixelsPerPoint)
         && AcquiredWith(c, f.compositer, ViewIndex.Second, r2, pixelsPerPoint)
         && Framed(c, f, Drawn(ViewIndex.First, r1) + Drawn(ViewIndex.Second, r2), {ViewIndex.First, ViewIndex.Second})
         && f.window.firstView.image == first.output
         && f.window.secondView.image == second.output
       case CustomSplit | CustomCircular =>
         && AcquiredWith(c, f.compositer, ViewIndex.First, rc, pixelsPerPoint)
         && AcquiredWith(c, f.compositer, ViewIndex.Second, rc, pixelsPerPoint)
         && Framed(c, f, Drawn(ViewIndex.First, rc) + Drawn(ViewIndex.Second, rc), {ViewIndex.First})
         && f.window.firstView.image == None
         && f.window.secondView == w.secondView
  }

  /** The milestones of a frame of the current layout, delivering the targets `c`
      holds: a single view is acquired, rendered and delivered at its own index, the
      splits do that for the first view then the second, and the custom layouts acquire
      and render both with the composite rectangle before delivering nothing to
      `Composite`. A view acquired with a degenerate rectangle is not rendered. */
  function FrameMilestones(c: Compositer, w: Window): seq<Effect>
  {
    var r1, r2, rc := GetRect(w, ViewCompositionIndex.First), GetRect(w, ViewCompositionIndex.Second),
                      GetRect(w, ViewCompositionIndex.Composite);
    match w.context.viewLayout
    case FullFirstView => SingleMilestones(ViewIndex.First, r1, c.first.output)
    case FullSecondView => SingleMilestones(ViewIndex.Second, r2, c.second.output)
    case HorizontalSplit | VerticalSplit =>
      SingleMilestones(ViewIndex.First, r1, c.first.output) + SingleMilestones(ViewIndex.Second, r2, c.second.output)
    case CustomSplit | CustomCircular => CompositeMilestones(rc)
  }

  /** How many times a frame of the current layout renders view `v`: once for each
      proper rectangle the layout acquires it with, and never otherwise. */
  function RenderCount(w: Window, v: ViewIndex): nat
  {
    var proper := (r: Rect) => if IsNullArea(r) then 0 else 1;
    match w.context.viewLayout
    case FullFirstView => if v == ViewIndex.First then proper(GetRect(w, ViewCompositionIndex.First)) else 0
    case FullSecondView => if v == ViewIndex.Second then proper(GetRect(w, ViewCompositionIndex.Second)) else 0
    case HorizontalSplit | VerticalSplit => proper(GetRect(w, AsCompositionIndex(v)))
    case CustomSplit | CustomCircular => proper(GetRect(w, ViewCompositionIndex.Composite))
  }

  /** A frame renders each view exactly as often as its layout calls for: a view not
      acquired, or acquired with a degenerate rectangle, is never rendered, and any
      other acquired view is rendered once. */
  lemma FrameRenders(c: Compositer, w: Window, pixelsPerPoint: real, f: Frame, v: ViewIndex)
    requires LayoutOutcome(c, w, pixelsPerPoint, f)
    ensures multiset(f.effects)[CameraRendered(v)] == RenderCount(w, v)
  {
    MilestonesCount(f.effects, CameraRendered(v));
    var r1, r2, rc := GetRect(w, ViewCompositionIndex.First), GetRect(w, ViewCompositionIndex.Second),
                      GetRect(w, ViewCompositionIndex.Composite);
    var o1, o2 := f.compositer.first.output, f.compositer.second.output;
    match w.context.viewLayout
    case FullFirstView =>
      SingleRenders(ViewIndex.First, r1, o1, v);
    case FullSecondView =>
      SingleRenders(ViewIndex.Second, r2, o2, v);
    case HorizontalSplit | VerticalSplit =>
      SingleRenders(ViewIndex.First, r1, o1, v);
      SingleRenders(ViewIndex.Second, r2, o2, v);
      var a, b := SingleMilestones(ViewIndex.First, r1, o1), SingleMilestones(ViewIndex.Second, r2, o2);
      assert multiset(a + b) == multiset(a) + multiset(b);
      assert AsCompositionIndex(v) == if v == ViewIndex.First then ViewCompositionIndex.First else ViewCompositionIndex.Second;
    case CustomSplit | CustomCircular =>
      CompositeRenders(rc, v);
  }

  /** The renders among a single view frame's milestones. */
  lemma SingleRenders(u: ViewIndex, rect: Rect, output: Option<Texture>, v: ViewIndex)
    ensures multiset(SingleMilestones(u, rect, output))[CameraRendered(v)] == if u == v && !IsNullArea(rect) then 1 else 0
  {
    var call, delivery := [AcquireCalled(u, rect)], [TextureDelivered(AsCompositionIndex(u), output)];
    assert multiset(call + RenderOf(u, rect) + delivery) == multiset(call) + multiset(RenderOf(u, rect)) + multiset(delivery);
  }

  /** The renders among a composite frame's milestones. */
  lemma CompositeRenders(rect: Rect, v: ViewIndex)
    ensures multiset(CompositeMilestones(rect))[CameraRendered(v)] == if IsNullArea(rect) then 0 else 1
  {
    var callA, callB := [AcquireCalled(ViewIndex.First, rect)], [AcquireCalled(ViewIndex.Second, rect)];
    var delivery := [TextureDelivered(ViewCompositionIndex.Composite, None)];
    var a, b := RenderOf(ViewIndex.First, rect), RenderOf(ViewIndex.Second, rect);
    assert multiset(callA + a + callB + b + delivery)
        == multiset(callA) + multiset(a) + multiset(callB) + multiset(b) + multiset(delivery);
  }

  /** Apart from the capture bracket, every effect of the frame is one of a frame that
      renders the views in `drawn` and shows the views in `shown`. */
  ghost predicate Framed(c: Compositer, f: Frame, drawn: set<ViewIndex>, shown: set<ViewIndex>)
  {
    forall e :: e in f.effects && !e.CaptureBegun? && !e.CaptureEnded? ==> IsFrameEffect(e, c, f, drawn, shown)
  }

  /** The compositer and the window are what a frame of the current layout leaves:
      every view the layout acquires is settled for its rectangle and its image already
      shows what the frame would deliver. */
  ghost predicate FrameSettled(c: Compositer, w: Window, pixelsPerPoint: real)
  {
    var r1, r2, rc := GetRect(w, ViewCompositionIndex.First), GetRect(w, ViewCompositionIndex.Second),
                      GetRect(w, ViewCompositionIndex.Composite);
    match w.context.viewLayout
    case FullFirstView =>
      Settled(c.first, r1, c.renderer, pixelsPerPoint) && w.firstView.image == c.first.output
    case FullSecondView =>
      Settled(c.second, r2, c.renderer, pixelsPerPoint) && w.secondView.image == c.second.output
    case HorizontalSplit | VerticalSplit =>
      && Settled(c.first, r1, c.renderer, pixelsPerPoint) && w.firstView.image == c.first.output
      && Settled(c.second, r2, c.renderer, pixelsPerPoint) && w.secondView.image == c.second.output
    case CustomSplit | CustomCircular =>
      && Settled(c.first, rc, c.renderer, pixelsPerPoint) && Settled(c.second, rc, c.renderer, pixelsPerPoint)
      && w.firstView.image == None
  }

  /** The trace of a frame from a settled compositer and window: the calls, and around
      each proper rectangle one render that needs no target work. */
  function SteadyFrame(c: Compositer, w: Window): (t: seq<Effect>)
    ensures Milestones(t) == FrameMilestones(c, w)
    ensures forall e :: e in t ==> IsSteadyEffect(e)
  {
    var r1, r2, rc := GetRect(w, ViewCompositionIndex.First), GetRect(w, ViewCompositionIndex.Second),
                      GetRect(w, ViewCompositionIndex.Composite);
    var m := FrameMilestones(c, w);
    match w.context.viewLayout
    case FullFirstView =>
      assert m == SingleMilestones(ViewIndex.First, r1, c.first.output);
      SingleSteady(ViewIndex.First, r1, c.first.output)
    case FullSecondView =>
      assert m == SingleMilestones(ViewIndex.Second, r2, c.second.output);
      SingleSteady(ViewIndex.Second, r2, c.second.output)
    case HorizontalSplit | VerticalSplit =>
      var a, b := SingleSteady(ViewIndex.First, r1, c.first.output), SingleSteady(ViewIndex.Second, r2, c.second.output);
      assert m == SingleMilestones(ViewIndex.First, r1, c.first.output) + SingleMilestones(ViewIndex.Second, r2, c.second.output);
      MilestonesDistribute(a, b);
      SteadyJoin(a, b);
      a + b
    case CustomSplit | CustomCircular =>
      assert m == CompositeMilestones(rc);
      CompositeSteady(rc)
  }

  /** The switch of `Compositer.Render` over the current layout. */
  method RenderLayout(c: Compositer, w: Window, pixelsPerPoint: real) returns (f: Frame)
    requires c.Valid()
    ensures f.compositer.Valid()
    ensures f.compositer.renderer == c.renderer && f.compositer.captureRequested == c.captureRequested
    ensures SameLayoutAndRects(w, f.window)
    ensures CaptureBegun !in f.effects && CaptureEnded !in f.effects
    ensures LayoutOutcome(c, w, pixelsPerPoint, f)
    ensures FrameSettled(c, w, pixelsPerPoint) ==> f == Frame(c, w, SteadyFrame(c, w))
  {
    match w.context.viewLayout
    case FullFirstView =>
      f := RenderSingleAndOutput(c, w, ViewIndex.First, pixelsPerPoint);
      SingleOutcome(c, w, pixelsPerPoint, ViewIndex.First, f);
    case FullSecondView =>
      f := RenderSingleAndOutput(c, w, ViewIndex.Second, pixelsPerPoint);
      SingleOutcome(c, w, pixelsPerPoint, ViewIndex.Second, f);
    case HorizontalSplit | VerticalSplit =>
      f := RenderBothSingles(c, w, pixelsPerPoint);
      SplitOutcome(c, w, pixelsPerPoint, f);
    case CustomSplit | CustomCircular =>
      f := RenderCompositeAndOutput(c, w, pixelsPerPoint);
      CompositeOutcome(c, w, pixelsPerPoint, f);
  }

  /** The frame of a single-view layout is the outcome of that layout. */
  lemma SingleOutcome(c: Compositer, w: Window, pixelsPerPoint: real, index: ViewIndex, f: Frame)
    requires w.context.viewLayout == if index == ViewIndex.First then FullFirstView else FullSecondView
    requires f.compositer.Data(Other(index)) == c.Data(Other(index))
    requires var rect := GetRect(w, AsCompositionIndex(index));
             && AcquiredWith(c, f.compositer, index, rect, pixelsPerPoint)
             && Counted(c, f.compositer)
             && Milestones(f.effects) == SingleMilestones(index, rect, f.compositer.Data(index).output)
             && (forall e :: e in f.effects ==> IsFrameEffect(e, c, f, Drawn(index, rect), {index}))
             && f.window.View(index).image == f.compositer.Data(index).output
             && f.window.View(Other(index)) == w.View(Other(index))
             && (Settled(c.Data(index), rect, c.renderer, pixelsPerPoint) && w.View(index).image == c.Data(index).output ==>
                   f == Frame(c, w, SingleSteady(index, rect, c.Data(index).output)))
    ensures LayoutOutcome(c, w, pixelsPerPoint, f)
    ensures FrameSettled(c, w, pixelsPerPoint) ==> f == Frame(c, w, SteadyFrame(c, w))
  {
    match index
    case First =>
    case Second =>
  }

  /** The frame of a split layout is the outcome of that layout. */
  lemma SplitOutcome(c: Compositer, w: Window, pixelsPerPoint: real, f: Frame)
    requires w.context.viewLayout == HorizontalSplit || w.context.viewLayout == VerticalSplit
    requires var r1, r2 := GetRect(w, ViewCompositionIndex.First), GetRect(w, ViewCompositionIndex.Second);
             && AcquiredWith(c, f.compositer, ViewIndex.First, r1, pixelsPerPoint)
             && AcquiredWith(c, f.compositer, ViewIndex.Second, r2, pixelsPerPoint)
             && Counted(c, f.compositer)
             && Milestones(f.effects) == SingleMilestones(ViewIndex.First, r1, f.compositer.first.output)
                                         + SingleMilestones(ViewIndex.Second, r2, f.compositer.second.output)
             && (forall e :: e in f.effects ==>
                   IsFrameEffect(e, c, f, Drawn(ViewIndex.First, r1) + Drawn(ViewIndex.Second, r2), {ViewIndex.First, ViewIndex.Second}))
             && f.window.firstView.image == f.compositer.first.output
             && f.window.secondView.image == f.compositer.second.output
             && (Settled(c.first, r1, c.renderer, pixelsPerPoint) && w.firstView.image == c.first.output
                 && Settled(c.second, r2, c.renderer, pixelsPerPoint) && w.secondView.image == c.second.output ==>
                   f == Frame(c, w, SingleSteady(ViewIndex.First, r1, c.first.output)
                                    + SingleSteady(ViewIndex.Second, r2, c.second.output)))
    ensures LayoutOutcome(c, w, pixelsPerPoint, f)
    ensures FrameSettled(c, w, pixelsPerPoint) ==> f == Frame(c, w, SteadyFrame(c, w))
  {
  }

  /** The frame of a custom layout is the outcome of that layout. */
  lemma CompositeOutcome(c: Compositer, w: Window, pixelsPerPoint: real, f: Frame)
    requires w.context.viewLayout == CustomSplit || w.context.viewLayout == CustomCircular
    requires var rect := GetRect(w, ViewCompositionIndex.Composite);
             && AcquiredWith(c, f.compositer, ViewIndex.First, rect, pixelsPerPoint)
             && AcquiredWith(c, f.compositer, ViewIndex.Second, rect, pixelsPerPoint)
             && Counted(c, f.compositer)
             && Milestones(f.effects) == CompositeMilestones(rect)
             && (forall e :: e in f.effects ==>
                   IsFrameEffect(e, c, f, Drawn(ViewIndex.First, rect) + Drawn(ViewIndex.Second, rect), {ViewIndex.First}))
             && f.window.firstView.image == None
             && f.window.secondView == w.secondView
             && (Settled(c.first, rect, c.renderer, pixelsPerPoint) && Settled(c.second, rect, c.renderer, pixelsPerPoint)
                 && w.firstView.image == None ==>
                   f == Frame(c, w, CompositeSteady(rect)))
    ensures LayoutOutcome(c, w, pixelsPerPoint, f)
    ensures FrameSettled(c, w, pixelsPerPoint) ==> f == Frame(c, w, SteadyFrame(c, w))
  {
  }

  /** A frame leaves the compositer and the window settled for the layout it rendered. */
  lemma OutcomeSettles(c: Compositer, w: Window, pixelsPerPoint: real, f: Frame)
    requires LayoutOutcome(c, w, pixelsPerPoint, f)
    requires SameLayoutAndRects(w, f.window) && f.compositer.renderer == c.renderer
    ensures FrameSettled(f.compositer, f.window, pixelsPerPoint)
  {
  }

  /** `Compositer.Render`: one frame. `captureAvailable` is whether the capture tool is
      loaded and supported; a pending request then brackets the frame with a begin and
      an end of capture. The request is dropped at the end of every frame. */
  method Render(c: Compositer, w: Window, captureAvailable: bool, pixelsPerPoint: real) returns (f: Frame)
    requires c.Valid()
    ensures f.compositer.Valid()
    ensures !f.compositer.captureRequested
    ensures f.compositer.renderer == c.renderer
    ensures SameLayoutAndRects(w, f.window)
    ensures LayoutOutcome(c, w, pixelsPerPoint, f)
    ensures FrameSettled(f.compositer, f.window, pixelsPerPoint)
    ensures var n := if captureAvailable && c.captureRequested then 1 else 0;
            multiset(f.effects)[CaptureBegun] == n && multiset(f.effects)[CaptureEnded] == n
    ensures captureAvailable && c.captureRequested ==>
              f.effects[0] == CaptureBegun && f.effects[|f.effects| - 1] == CaptureEnded
    ensures FrameSettled(c, w, pixelsPerPoint) && !(captureAvailable && c.captureRequested) ==>
              f == Frame(c.(captureRequested := false), w, SteadyFrame(c, w))
  {
    var on := captureAvailable && c.captureRequested;
    var begin := if on then [CaptureBegun] else [];
    var body := RenderLayout(c, w, pixelsPerPoint);
    var end := if captureAvailable && body.compositer.captureRequested then [CaptureEnded] else [];
    assert end == (if on then [CaptureEnded] else []);
    f := Frame(body.compositer.(captureRequested := false), body.window, begin + body.effects + end);
    BracketedOutcome(c, w, pixelsPerPoint, on, body);
  }

  /** The frame `Render` returns, from the frame of the layout switch: the capture
      bracket and the dropped request change neither the outcome nor, without a
      bracket, a steady frame. */
  lemma BracketedOutcome(c: Compositer, w: Window, pixelsPerPoint: real, on: bool, body: Frame)
    requires body.compositer.renderer == c.renderer
    requires SameLayoutAndRects(w, body.window)
    requires CaptureBegun !in body.effects && CaptureEnded !in body.effects
    requires LayoutOutcome(c, w, pixelsPerPoint, body)
    requires FrameSettled(c, w, pixelsPerPoint) ==> body == Frame(c, w, SteadyFrame(c, w))
    ensures var f := Frame(body.compositer.(captureRequested := false), body.window,
                           (if on then [CaptureBegun] else []) + body.effects + (if on then [CaptureEnded] else []));
            && LayoutOutcome(c, w, pixelsPerPoint, f)
            && FrameSettled(f.compositer, f.window, pixelsPerPoint)
            && multiset(f.effects)[CaptureBegun] == (if on then 1 else 0)
            && multiset(f.effects)[CaptureEnded] == (if on then 1 else 0)
            && (on ==> f.effects[0] == CaptureBegun && f.effects[|f.effects| - 1] == CaptureEnded)
            && (FrameSettled(c, w, pixelsPerPoint) && !on ==>
                  f == Frame(c.(captureRequested := false), w, SteadyFrame(c, w)))
  {
    var f := Frame(body.compositer.(captureRequested := false), body.window,
                   (if on then [CaptureBegun] else []) + body.effects + (if on then [CaptureEnded] else []));
    CaptureBracket(on, body.effects);
    BracketKeepsOutcome(c, w, pixelsPerPoint, on, body);
  }

  /** The capture bracket and the dropped request leave a frame's outcome as it was. */
  lemma BracketKeepsOutcome(c: Compositer, w: Window, pixelsPerPoint: real, on: bool, body: Frame)
    requires body.compositer.renderer == c.renderer
    requires SameLayoutAndRects(w, body.window)
    requires CaptureBegun !in body.effects && CaptureEnded !in body.effects
    requires LayoutOutcome(c, w, pixelsPerPoint, body)
    ensures var f := Frame(body.compositer.(captureRequested := false), body.window,
                           (if on then [CaptureBegun] else []) + body.effects + (if on then [CaptureEnded] else []));
            && LayoutOutcome(c, w, pixelsPerPoint, f)
            && FrameSettled(f.compositer, f.window, pixelsPerPoint)
  {
    var f := Frame(body.compositer.(captureRequested := false), body.window,
                   (if on then [CaptureBegun] else []) + body.effects + (if on then [CaptureEnded] else []));
    CaptureBracket(on, body.effects);
    OutcomeIgnoresCapture(c, w, pixelsPerPoint, body, f);
    OutcomeSettles(c, w, pixelsPerPoint, f);
  }

  /** Bracketing a trace free of capture events adds exactly one begin, first, and one
      end, last, and no milestones. */
  lemma CaptureBracket(on: bool, body: seq<Effect>)
    requires CaptureBegun !in body && CaptureEnded !in body
    ensures var t := (if on then [CaptureBegun] else []) + body + (if on then [CaptureEnded] else []);
            && multiset(t)[CaptureBegun] == (if on then 1 else 0)
            && multiset(t)[CaptureEnded] == (if on then 1 else 0)
            && (on ==> t[0] == CaptureBegun && t[|t| - 1] == CaptureEnded)
            && Milestones(t) == Milestones(body)
            && (forall e :: e in t <==> e in body || (on && (e == CaptureBegun || e == CaptureEnded)))
            && (!on ==> t == body)
  {
    assert multiset(body)[CaptureBegun] == 0 && multiset(body)[CaptureEnded] == 0;
    if on {
      var t := [CaptureBegun] + body + [CaptureEnded];
      assert forall e :: e in t <==> e in [CaptureBegun] + body || e == CaptureEnded;
      assert multiset(t) == multiset([CaptureBegun]) + multiset(body) + multiset([CaptureEnded]);
      NoMilestones([CaptureBegun]);
      NoMilestones([CaptureEnded]);
      MilestonesDistribute([CaptureBegun], body);
      MilestonesDistribute([CaptureBegun] + body, [CaptureEnded]);
    } else {
      assert [] + body + [] == body;
    }
  }

  /** The outcome of a frame depends only on its milestones, the rendering data and the
      window, not on the capture bracket or the request flag. */
  lemma OutcomeIgnoresCapture(c: Compositer, w: Window, pixelsPerPoint: real, f: Frame, g: Frame)
    requires LayoutOutcome(c, w, pixelsPerPoint, f)
    requires Milestones(g.effects) == Milestones(f.effects)
    requires forall e :: e in g.effects && !e.CaptureBegun? && !e.CaptureEnded? ==> e in f.effects
    requires g.compositer.first == f.compositer.first && g.compositer.second == f.compositer.second
    requires g.compositer.next == f.compositer.next
    requires g.window == f.window
    ensures LayoutOutcome(c, w, pixelsPerPoint, g)
  {
  }

  /** A capture request followed by two frames: the first frame is bracketed by one
      begin and one end of capture, the second by none. */
  method CaptureThenTwoFrames(c: Compositer, w: Window, pixelsPerPoint: real) returns (f1: Frame, f2: Frame)
    requires c.Valid()
    ensures multiset(f1.effects)[CaptureBegun] == 1 && multiset(f1.effects)[CaptureEnded] == 1
    ensures multiset(f2.effects)[CaptureBegun] == 0 && multiset(f2.effects)[CaptureEnded] == 0
    ensures f2.compositer.Valid() && !f2.compositer.captureRequested
  {
    f1 := Render(RequestCapture(c), w, true, pixelsPerPoint);
    f2 := Render(f1.compositer, f1.window, true, pixelsPerPoint);
  }

  /** Two frames in a row without moving the window: the second finds everything
      settled, so it keeps every target and binding, assigns no image, and only renders
      each view once again around the same calls. */
  method RenderTwice(c: Compositer, w: Window, captureAvailable: bool, pixelsPerPoint: real)
    returns (f1: Frame, f2: Frame)
    requires c.Valid()
    ensures f2.compositer == f1.compositer && f2.window == f1.window
    ensures Milestones(f2.effects) == Milestones(f1.effects)
    ensures forall e :: e in f2.effects ==> !e.Allocated? && !e.Destroyed? && !e.TargetSet? && !e.ImageAssigned?
  {
    f1 := Render(c, w, captureAvailable, pixelsPerPoint);
    f2 := Render(f1.compositer, f1.window, captureAvailable, pixelsPerPoint);
    assert f1.compositer.(captureRequested := false) == f1.compositer;
    SteadyFrameRepeats(w, f1, f2);
  }

  /** A frame that finds everything settled repeats the previous frame's calls and
      renders, and changes nothing. */
  lemma SteadyFrameRepeats(w: Window, f1: Frame, f2: Frame)
    requires Milestones(f1.effects) == FrameMilestones(f1.compositer, w)
    requires SameLayoutAndRects(w, f1.window)
    requires f2 == Frame(f1.compositer, f1.window, SteadyFrame(f1.compositer, f1.window))
    ensures Milestones(f2.effects) == Milestones(f1.effects)
    ensures forall e :: e in f2.effects ==> !e.Allocated? && !e.Destroyed? && !e.TargetSet? && !e.ImageAssigned?
  {
    assert FrameMilestones(f1.compositer, f1.window) == FrameMilestones(f1.compositer, w);
  }
}

=== FILE: display.dfy ===
/**
 The displayer side of `DisplayWindow`: routing of rectangles and textures by
 `ViewCompositionIndex` onto the two view images, and the `layout` and
 `showEnvironmentPanel` setters that keep the style classes of the containers in
 step with the stored layout.

 The layout and the panel switch live in the current LookDev context, which the
 compositer reads as well; here it is part of the window value.
 */
module Display {
  import opened LookDevTypes

  const FirstViewClass: string := "firstView"
  const SecondViewClass: string := "secondView"
  const VerticalSplitClass: string := "verticalSplit"
  const ShowEnvironmentPanelClass: string := "showEnvironmentPanel"

  /** The view-container classes the layout setter manages. */
  const LayoutClassNames: set<string> := {FirstViewClass, SecondViewClass, VerticalSplitClass}

  /** An `Image` view: its content rectangle and the texture it shows. */
  datatype ViewImage = ViewImage(contentRect: Rect, image: Option<Texture>)

  /** `layout` of the current context: the view layout and the environment-panel switch. */
  datatype LayoutContext = LayoutContext(viewLayout: Layout, showEnvironmentPanel: bool)

  /** The window: the context it edits, its two view images, and the class lists of the
      view container and of the main container. */
  datatype Window = Window(
    context: LayoutContext,
    firstView: ViewImage,
    secondView: ViewImage,
    viewClasses: set<string>,
    mainClasses: set<string>)
  {
    function View(v: ViewIndex): ViewImage
    {
      match v
      case First => firstView
      case Second => secondView
    }
  }

  /** The view image an index is shown on: a composition is shown on the first view. */
  function ShownOn(index: ViewCompositionIndex): (v: ViewIndex)
    ensures AsCompositionIndex(v) == index || index == ViewCompositionIndex.Composite
    ensures index == ViewCompositionIndex.Composite ==> v == ViewIndex.First
  {
    match index
    case Second => ViewIndex.Second
    case First => ViewIndex.First
    case Composite => ViewIndex.First
  }

  /** `IDisplayer.GetRect`. */
  function GetRect(w: Window, index: ViewCompositionIndex): (r: Rect)
    ensures index == ViewCompositionIndex.Second ==> r == w.secondView.contentRect
    ensures index != ViewCompositionIndex.Second ==> r == w.firstView.contentRect
  {
    match index
    case First => w.firstView.contentRect
    case Composite => w.firstView.contentRect
    case Second => w.secondView.contentRect
  }

  datatype DisplayStep = DisplayStep(window: Window, effects: seq<Effect>)

  /** `IDisplayer.SetTexture`: assign the image of the view the index is shown on,
      unless it already shows that texture. */
  function SetTexture(w: Window, index: ViewCompositionIndex, t: Option<Texture>): (r: DisplayStep)
    ensures r.window.View(ShownOn(index)).image == t
    ensures r.window.View(ShownOn(index)).contentRect == w.View(ShownOn(index)).contentRect
    ensures r.window.View(Other(ShownOn(index))) == w.View(Other(ShownOn(index)))
    ensures r.window.context == w.context
    ensures r.window.viewClasses == w.viewClasses && r.window.mainClasses == w.mainClasses
    ensures w.View(ShownOn(index)).image == t ==> r == DisplayStep(w, [])
    ensures w.View(ShownOn(index)).image != t ==> r.effects == [ImageAssigned(ShownOn(index), t)]
  {
    match index
    case First | Composite =>
      if w.firstView.image != t then
        DisplayStep(w.(firstView := w.firstView.(image := t)), [ImageAssigned(ViewIndex.First, t)])
      else
        DisplayStep(w, [])
    case Second =>
      if w.secondView.image != t then
        DisplayStep(w.(secondView := w.secondView.(image := t)), [ImageAssigned(ViewIndex.Second, t)])
      else
        DisplayStep(w, [])
  }

  /** The composite index is an alias of the first: same rectangle, same image. */
  lemma CompositeAliasesFirst(w: Window, t: Option<Texture>)
    ensures GetRect(w, ViewCompositionIndex.Composite) == GetRect(w, ViewCompositionIndex.First)
    ensures SetTexture(w, ViewCompositionIndex.Composite, t) == SetTexture(w, ViewCompositionIndex.First, t)
  {
  }

  /** Setting a texture twice is setting it once; the second call assigns nothing. */
  lemma SetTextureIdempotent(w: Window, index: ViewCompositionIndex, t: Option<Texture>)
    ensures var s1 := SetTexture(w, index, t);
            SetTexture(s1.window, index, t) == DisplayStep(s1.window, [])
  {
  }

  /** The managed classes each layout calls for: both views side by side for the
      splits (plus `verticalSplit` for the vertical one), the first view alone for the
      single first view and the custom composites, the second view alone otherwise. */
  function LayoutClasses(l: Layout): (c: set<string>)
    ensures c <= LayoutClassNames
  {
    match l
    case HorizontalSplit => {FirstViewClass, SecondViewClass}
    case VerticalSplit => {FirstViewClass, SecondViewClass, VerticalSplitClass}
    case FullFirstView => {FirstViewClass}
    case CustomSplit => {FirstViewClass}
    case CustomCircular => {FirstViewClass}
    case FullSecondView => {SecondViewClass}
  }

  /** The view container's managed classes are those of the stored layout. */
  ghost predicate LayoutConsistent(w: Window)
  {
    w.viewClasses * LayoutClassNames == LayoutClasses(w.context.viewLayout)
  }

  function AddClass(classes: set<string>, c: string): set<string> { classes + {c} }

  function RemoveClass(classes: set<string>, c: string): set<string> { classes - {c} }

  /** The class edits of the `layout` setter's switch, in source order. */
  function SwitchClasses(classes: set<string>, value: Layout): (c: set<string>)
    ensures c - LayoutClassNames == classes - LayoutClassNames
    ensures c * {FirstViewClass, SecondViewClass} == LayoutClasses(value) * {FirstViewClass, SecondViewClass}
    ensures value == VerticalSplit ==> VerticalSplitClass in c
    ensures value != VerticalSplit ==> (VerticalSplitClass in c <==> VerticalSplitClass in classes)
  {
    match value
    case HorizontalSplit | VerticalSplit =>
      var c := if FirstViewClass !in classes then AddClass(classes, FirstViewClass) else classes;
      var c := if SecondViewClass !in c then AddClass(c, SecondViewClass) else c;
      if value == VerticalSplit then
        var c := AddClass(c, VerticalSplitClass);
        if VerticalSplitClass !in c then AddClass(c, FirstViewClass) else c
      else c
    case FullFirstView | CustomSplit | CustomCircular =>
      var c := if FirstViewClass !in classes then AddClass(classes, FirstViewClass) else classes;
      if SecondViewClass in c then RemoveClass(c, SecondViewClass) else c
    case FullSecondView =>
      var c := if FirstViewClass in classes then RemoveClass(classes, FirstViewClass) else classes;
      if SecondViewClass !in c then AddClass(c, SecondViewClass) else c
  }

  /** The `layout` setter: on an actual change, edit the view container's classes,
      store the layout and raise the layout-changed event once. */
  function SetLayout(w: Window, value: Layout): (r: DisplayStep)
    ensures value == w.context.viewLayout ==> r == DisplayStep(w, [])
    ensures value != w.context.viewLayout ==>
              && r.window.context == w.context.(viewLayout := value)
              && r.effects == [LayoutChanged(value)]
              && r.window.viewClasses * LayoutClassNames == LayoutClasses(value)
              && r.window.viewClasses - LayoutClassNames == w.viewClasses - LayoutClassNames
              && r.window.(viewClasses := w.viewClasses, context := w.context) == w
  {
    if w.context.viewLayout == value then
      DisplayStep(w, [])
    else
      var c := SwitchClasses(w.viewClasses, value);
      var c := if value == VerticalSplit then AddClass(c, VerticalSplitClass)
               else if VerticalSplitClass in c then RemoveClass(c, VerticalSplitClass)
               else c;
      DisplayStep(w.(viewClasses := c, context := w.context.(viewLayout := value)), [LayoutChanged(value)])
  }

  /** Whatever layout is set, a window whose classes match its layout keeps them matching. */
  lemma SetLayoutKeepsConsistency(w: Window, value: Layout)
    requires LayoutConsistent(w)
    ensures LayoutConsistent(SetLayout(w, value).window)
  {
  }

  /** After a change of layout, the side-by-side layouts show both views, and
      `verticalSplit` is present exactly for the vertical one. */
  lemma SetLayoutViewClasses(w: Window, value: Layout)
    requires value != w.context.viewLayout
    ensures var c := SetLayout(w, value).window.viewClasses;
            && (value.HorizontalSplit? || value.VerticalSplit? ==> FirstViewClass in c && SecondViewClass in c)
            && (value.FullFirstView? || value.CustomSplit? || value.CustomCircular? ==>
                  FirstViewClass in c && SecondViewClass !in c)
            && (value.FullSecondView? ==> FirstViewClass !in c && SecondViewClass in c)
            && (VerticalSplitClass in c <==> value.VerticalSplit?)
  {
  }

  /** The `showEnvironmentPanel` setter: on an actual change, put the panel class on the
      main container exactly when the panel is shown, and store the value. */
  function SetShowEnvironmentPanel(w: Window, value: bool): (r: Window)
    ensures value == w.context.showEnvironmentPanel ==> r == w
    ensures r.context == w.context.(showEnvironmentPanel := value)
    ensures value != w.context.showEnvironmentPanel ==> (ShowEnvironmentPanelClass in r.mainClasses <==> value)
    ensures r.mainClasses - {ShowEnvironmentPanelClass} == w.mainClasses - {ShowEnvironmentPanelClass}
    ensures r.(mainClasses := w.mainClasses, context := w.context) == w
  {
    if w.context.showEnvironmentPanel == value then
      w
    else
      var c :=
        if value then
          (if ShowEnvironmentPanelClass !in w.mainClasses then AddClass(w.mainClasses, ShowEnvironmentPanelClass)
           else w.mainClasses)
        else
          (if ShowEnvironmentPanelClass in w.mainClasses then RemoveClass(w.mainClasses, ShowEnvironmentPanelClass)
           else w.mainClasses);
      w.(mainClasses := c, context := w.context.(showEnvironmentPanel := value))
  }

  /** A window whose panel class matches its switch keeps it matching. */
  lemma SetShowEnvironmentPanelKeepsConsistency(w: Window, value: bool)
    requires ShowEnvironmentPanelClass in w.mainClasses <==> w.context.showEnvironmentPanel
    ensures var r := SetShowEnvironmentPanel(w, value);
            ShowEnvironmentPanelClass in r.mainClasses <==> value
  {
  }
}

=== FILE: renderer.dfy ===
/**
 `Renderer`: renders one view into its own offscreen target.

 `Acquire` skips a degenerate viewport; otherwise it shows the stage content,
 (re)sizes the output target and binds it to the camera, enables the camera,
 renders once, then disables the camera and hides the content again.
 */
module Rendering {
  import opened LookDevTypes
  import opened Sizing
  import opened TextureCache
  import opened Stages

  /** `RenderingData`: a stage, the viewport requested for it, and the texture produced. */
  datatype RenderingData = RenderingData(stage: Stage, viewPort: Rect, output: Option<Texture>)

  /** `Renderer`: its only state is the pixel-perfect switch. */
  datatype Renderer = Renderer(pixelPerfect: bool)

  /** `Renderer.IsNullArea`: a side below one point, or not a number. */
  function IsNullArea(r: Rect): (b: bool)
    ensures !b <==> r.width.Num? && r.height.Num? && r.width.value >= 1.0 && r.height.value >= 1.0
    ensures !b ==> Sizable(r)
  {
    LessThan(r.width, 1.0) || LessThan(r.height, 1.0) || r.width.NaN? || r.height.NaN?
  }

  datatype LinkStep = LinkStep(output: Option<Texture>, camera: Camera, next: nat, effects: seq<Effect>)

  /** The body of `Renderer.UpdateSizeAndLinkToCamera` once the target size `sz` is
      known: reallocate `output` when it is missing or of another size, then bind it
      to the camera unless the camera already targets it. */
  function LinkTarget(sz: Size, output: Option<Texture>, camera: Camera, next: nat): (r: LinkStep)
    ensures Fits(r.output, sz)
    ensures r.camera == camera.(target := r.output)
    ensures r.output != output <==> !Fits(output, sz)
    ensures r.output != output ==> r.output.value.id == next && r.next == next + 1
    ensures r.output == output ==> r.next == next
    ensures Fits(output, sz) && camera.target == output ==> r.effects == []
    ensures Fits(output, sz) ==>
              r.effects == (if camera.target != output then [TargetSet(camera.view, output)] else [])
    ensures !Fits(output, sz) ==>
              var k := if output.Some? then 1 else 0;
              && |r.effects| == k + 1 + (if camera.target != r.output then 1 else 0)
              && (output.Some? ==> r.effects[0] == Destroyed(output.value))
              && r.effects[k] == Allocated(r.output.value)
              && (camera.target != r.output ==> r.effects[k + 1] == TargetSet(camera.view, r.output))
  {
    if Fits(output, sz) then
      var bind := if camera.target != output then [TargetSet(camera.view, output)] else [];
      LinkStep(output, camera.(target := output), next, bind)
    else
      var rep := Replace(output, sz, next);
      var texture := Some(rep.texture);
      var bind := if camera.target != texture then [TargetSet(camera.view, texture)] else [];
      LinkStep(texture, camera.(target := texture), rep.next, rep.effects + bind)
  }

  /** What the target work consists of: only allocations, destructions and bindings of
      this camera; an allocation exactly of a replacement, a destruction exactly of the
      replaced target, and a binding exactly when the camera was not on the result. */
  lemma LinkTargetEffects(sz: Size, output: Option<Texture>, camera: Camera, next: nat)
    ensures var r := LinkTarget(sz, output, camera, next);
            && (forall e :: e in r.effects ==> e.Allocated? || e.Destroyed? || e.TargetSet?)
            && (forall e :: e in r.effects && e.TargetSet? ==> e.view == camera.view)
            && (forall t :: Allocated(t) in r.effects <==> r.output != output && r.output == Some(t))
            && (forall t :: Destroyed(t) in r.effects <==> r.output != output && output == Some(t))
            && (forall t :: TargetSet(camera.view, t) in r.effects <==> camera.target != r.output && t == r.output)
  {
    var r := LinkTarget(sz, output, camera, next);
    var bind := if camera.target != r.output then [TargetSet(camera.view, r.output)] else [];
    if Fits(output, sz) {
      assert r.effects == bind;
    } else if output.Some? {
      assert r.effects == [Destroyed(output.value), Allocated(r.output.value)] + bind;
    } else {
      assert r.effects == [Allocated(r.output.value)] + bind;
    }
  }

  /** `Renderer.UpdateSizeAndLinkToCamera`: the target sized for `rect`, reallocated only
      when it does not fit, and bound to the camera. */
  function UpdateSizeAndLinkToCamera(renderer: Renderer, rect: Rect, output: Option<Texture>,
                                     camera: Camera, next: nat, pixelsPerPoint: real): (r: LinkStep)
    requires Sizable(rect)
    ensures Fits(r.output, TargetSizeOf(rect, pixelsPerPoint, renderer.pixelPerfect))
    ensures r.camera == camera.(target := r.output)
    ensures r.output != output <==> !Fits(output, TargetSizeOf(rect, pixelsPerPoint, renderer.pixelPerfect))
    ensures r.output != output ==> r.output.value.id == next && r.next == next + 1
    ensures r.output == output ==> r.next == next
    ensures Fits(output, TargetSizeOf(rect, pixelsPerPoint, renderer.pixelPerfect)) && camera.target == output ==>
              r.effects == []
    ensures Fits(output, TargetSizeOf(rect, pixelsPerPoint, renderer.pixelPerfect)) ==>
              r.effects == (if camera.target != output then [TargetSet(camera.view, output)] else [])
    ensures !Fits(output, TargetSizeOf(rect, pixelsPerPoint, renderer.pixelPerfect)) ==>
              var k := if output.Some? then 1 else 0;
              && |r.effects| == k + 1 + (if camera.target != r.output then 1 else 0)
              && (output.Some? ==> r.effects[0] == Destroyed(output.value))
              && r.effects[k] == Allocated(r.output.value)
              && (camera.target != r.output ==> r.effects[k + 1] == TargetSet(camera.view, r.output))
  {
    LinkTarget(TargetSizeOf(rect, pixelsPerPoint, renderer.pixelPerfect), output, camera, next)
  }

  /** The cache's sizing and the renderer's agree on the target and on the counter; they
      differ only in when they bind the camera: the cache binds a new target only, the
      renderer binds whenever the camera is not already on the target. */
  lemma CacheAgreesWithRenderer(c: Cache, rect: Rect, index: ViewCompositionIndex, renderer: Renderer,
                                camera: Camera, next: nat, pixelsPerPoint: real)
    requires Sizable(rect)
    ensures var s := UpdateSize(c, rect, index, renderer.pixelPerfect, camera, next, pixelsPerPoint);
            var l := UpdateSizeAndLinkToCamera(renderer, rect, c.Get(index), camera, next, pixelsPerPoint);
            && s.cache.Get(index) == l.output
            && s.next == l.next
            && (s.camera == l.camera <==> s.cache.Get(index) != c.Get(index) || camera.target == c.Get(index))
  {
  }

  datatype AcquireStep = AcquireStep(data: RenderingData, next: nat, effects: seq<Effect>)

  /** `Renderer.BeginRendering`: content visible, target sized and linked, camera enabled. */
  method BeginRendering(renderer: Renderer, d: RenderingData, next: nat, pixelsPerPoint: real) returns (r: AcquireStep)
    requires Sizable(d.viewPort)
    ensures r.data.viewPort == d.viewPort
    ensures Fits(r.data.output, TargetSizeOf(d.viewPort, pixelsPerPoint, renderer.pixelPerfect))
    ensures r.data.output != d.output <==> !Fits(d.output, TargetSizeOf(d.viewPort, pixelsPerPoint, renderer.pixelPerfect))
    ensures r.data.output != d.output ==> r.data.output.value.id == next && r.next == next + 1
    ensures r.data.output == d.output ==> r.next == next
    ensures r.data.stage == d.stage.(camera := d.stage.camera.(enabled := true, target := r.data.output),
                                     contentVisible := true)
    ensures |r.effects| >= 2
    ensures r.effects[0] == ContentVisible(d.stage.camera.view, true)
    ensures r.effects[|r.effects| - 1] == CameraEnabled(d.stage.camera.view, true)
    ensures Fits(d.output, TargetSizeOf(d.viewPort, pixelsPerPoint, renderer.pixelPerfect)) &&
            d.stage.camera.target == d.output ==>
              r.effects == [ContentVisible(d.stage.camera.view, true), CameraEnabled(d.stage.camera.view, true)]
    ensures var link := UpdateSizeAndLinkToCamera(renderer, d.viewPort, d.output, d.stage.camera, next, pixelsPerPoint);
            && r.data.output == link.output && r.next == link.next
            && r.effects == [ContentVisible(d.stage.camera.view, true)] + link.effects
                            + [CameraEnabled(d.stage.camera.view, true)]
  {
    var v := d.stage.camera.view;
    var link := UpdateSizeAndLinkToCamera(renderer, d.viewPort, d.output, d.stage.camera, next, pixelsPerPoint);
    var stage := d.stage.(contentVisible := true, camera := link.camera.(enabled := true));
    r := AcquireStep(d.(stage := stage, output := link.output), link.next,
                     [ContentVisible(v, true)] + link.effects + [CameraEnabled(v, true)]);
  }

  /** `Renderer.EndRendering`: camera disabled, content hidden. */
  function EndRendering(d: RenderingData): (r: (RenderingData, seq<Effect>))
    ensures !r.0.stage.camera.enabled && !r.0.stage.contentVisible
    ensures r.0.stage.camera.(enabled := d.stage.camera.enabled) == d.stage.camera
    ensures r.0.(stage := d.stage) == d
    ensures r.0.stage.(camera := d.stage.camera, contentVisible := d.stage.contentVisible) == d.stage
    ensures r.1 == [CameraEnabled(d.stage.camera.view, false), ContentVisible(d.stage.camera.view, false)]
  {
    var v := d.stage.camera.view;
    var stage := d.stage.(camera := d.stage.camera.(enabled := false), contentVisible := false);
    (d.(stage := stage), [CameraEnabled(v, false), ContentVisible(v, false)])
  }

  /** The paired bracket around a single render of view `v`: content shown, then only
      target (re)allocation and binding, camera enabled, one render, camera disabled,
      content hidden. */
  ghost predicate RenderBracket(t: seq<Effect>, v: ViewIndex)
  {
    && |t| >= 5
    && t[0] == ContentVisible(v, true)
    && (forall i :: 0 < i < |t| - 4 ==> t[i].Allocated? || t[i].Destroyed? || t[i].TargetSet?)
    && t[|t| - 4] == CameraEnabled(v, true)
    && t[|t| - 3] == CameraRendered(v)
    && t[|t| - 2] == CameraEnabled(v, false)
    && t[|t| - 1] == ContentVisible(v, false)
  }

  /** An effect a render of view `v` may have while its output goes from `before` to
      `after`: an engine call on `v`'s stage, an allocation only of a new `after`, and a
      destruction only of the `before` it replaces. */
  predicate IsViewEffect(e: Effect, v: ViewIndex, before: Option<Texture>, after: Option<Texture>)
  {
    match e
    case Allocated(t) => after == Some(t) && after != before
    case Destroyed(t) => before == Some(t) && after != before
    case TargetSet(w, _) => w == v
    case ContentVisible(w, _) => w == v
    case CameraEnabled(w, _) => w == v
    case CameraRendered(w) => w == v
    case _ => false
  }
  /** The trace of one render of view `v` whose target goes from `before` to `after`: a
      bracket around a single render, effects of `v` only, the allocation of exactly
      a new `after` and the destruction of exactly a replaced `before`. */
  ghost predicate RenderTrace(t: seq<Effect>, v: ViewIndex, before: Option<Texture>, after: Option<Texture>)
  {
    && RenderBracket(t, v)
    && (forall e :: e in t ==> IsViewEffect(e, v, before, after))
    && (forall i :: 0 <= i < |t| && t[i].CameraRendered? ==> i == |t| - 3)
    && (forall x :: Destroyed(x) in t <==> after != before && before == Some(x))
    && (forall x :: Allocated(x) in t <==> after != before && after == Some(x))
  }


  /** `Renderer.Acquire`: nothing but dropping the output for a degenerate viewport;
      otherwise one bracketed render into a target of the right size, reallocated only
      when the previous one does not fit. */
  method Acquire(renderer: Renderer, d: RenderingData, next: nat, pixelsPerPoint: real) returns (r: AcquireStep)
    ensures IsNullArea(d.viewPort) ==> r == AcquireStep(d.(output := None), next, [])
    ensures !IsNullArea(d.viewPort) ==>
              && r.data.viewPort == d.viewPort
              && Fits(r.data.output, TargetSizeOf(d.viewPort, pixelsPerPoint, renderer.pixelPerfect))
              && (r.data.output != d.output <==> !Fits(d.output, TargetSizeOf(d.viewPort, pixelsPerPoint, renderer.pixelPerfect)))
              && (r.data.output != d.output ==> r.data.output.value.id == next && r.next == next + 1)
              && (r.data.output == d.output ==> r.next == next)
              && r.data.stage == d.stage.(camera := d.stage.camera.(enabled := false, target := r.data.output),
                                          contentVisible := false)
              && RenderTrace(r.effects, d.stage.camera.view, d.output, r.data.output)
    ensures !IsNullArea(d.viewPort) && Fits(d.output, TargetSizeOf(d.viewPort, pixelsPerPoint, renderer.pixelPerfect)) &&
            d.stage.camera.target == d.output ==>
              r.effects == SteadyBracket(d.stage.camera.view)
    ensures !IsNullArea(d.viewPort) && Fits(d.output, TargetSizeOf(d.viewPort, pixelsPerPoint, renderer.pixelPerfect)) &&
            d.stage.camera.target == d.output && !d.stage.camera.enabled && !d.stage.contentVisible ==>
              r.data == d && r.next == next
    ensures forall e :: e in r.effects ==> IsViewEffect(e, d.stage.camera.view, d.output, r.data.output)
    ensures !IsNullArea(d.viewPort) ==>
              var v := d.stage.camera.view;
              var link := UpdateSizeAndLinkToCamera(renderer, d.viewPort, d.output, d.stage.camera, next, pixelsPerPoint);
              && r.data.output == link.output && r.next == link.next
              && r.effects == [ContentVisible(v, true)] + link.effects
                              + [CameraEnabled(v, true), CameraRendered(v), CameraEnabled(v, false), ContentVisible(v, false)]
  {
    if IsNullArea(d.viewPort) {
      r := AcquireStep(d.(output := None), next, []);
    } else {
      var v := d.stage.camera.view;
      var link := UpdateSizeAndLinkToCamera(renderer, d.viewPort, d.output, d.stage.camera, next, pixelsPerPoint);
      var begin := BeginRendering(renderer, d, next, pixelsPerPoint);
      var (data, endEffects) := EndRendering(begin.data);
      r := AcquireStep(data, begin.next, begin.effects + [CameraRendered(v)] + endEffects);
      assert r.data.output == link.output && r.next == link.next;
      assert r.effects == [ContentVisible(v, true)] + link.effects
                          + [CameraEnabled(v, true), CameraRendered(v), CameraEnabled(v, false), ContentVisible(v, false)];
      BracketAroundRender(TargetSizeOf(d.viewPort, pixelsPerPoint, renderer.pixelPerfect), d.output, d.stage.camera, next);
    }
  }

  /** The bracket of a render that needs no target work. */
  function SteadyBracket(v: ViewIndex): (t: seq<Effect>)
    ensures RenderBracket(t, v) && |t| == 5
  {
    [ContentVisible(v, true), CameraEnabled(v, true), CameraRendered(v), CameraEnabled(v, false), ContentVisible(v, false)]
  }

  /** The effects of `BeginRendering`, one render and `EndRendering` around the target
      work for a known size form a bracket with a single render in it; they are effects
      of this view only, allocate exactly the replacement and destroy exactly the
      replaced target, and reduce to the steady bracket when the target fits and is bound. */
  lemma BracketAroundRender(sz: Size, output: Option<Texture>, camera: Camera, next: nat)
    ensures var v, link := camera.view, LinkTarget(sz, output, camera, next);
            var t := [ContentVisible(v, true)] + link.effects
                     + [CameraEnabled(v, true), CameraRendered(v), CameraEnabled(v, false), ContentVisible(v, false)];
            && RenderTrace(t, v, output, link.output)
            && (Fits(output, sz) && camera.target == output ==> t == SteadyBracket(v))
  {
    var v, link := camera.view, LinkTarget(sz, output, camera, next);
    LinkTargetEffects(sz, output, camera, next);
    AroundTargetWork(v, link.effects, output, link.output);
  }

  /** Wrapping target work of view `v` between showing the stage and the render's
      closing calls keeps it a bracket of `v` whose only allocations and destructions
      are those of the target work. */
  lemma AroundTargetWork(v: ViewIndex, work: seq<Effect>, before: Option<Texture>, after: Option<Texture>)
    requires forall e :: e in work ==> (e.Allocated? || e.Destroyed? || e.TargetSet?) && IsViewEffect(e, v, before, after)
    ensures var t := [ContentVisible(v, true)] + work
                     + [CameraEnabled(v, true), CameraRendered(v), CameraEnabled(v, false), ContentVisible(v, false)];
            && RenderBracket(t, v)
            && (forall e :: e in t ==> IsViewEffect(e, v, before, after))
            && (forall i :: 0 <= i < |t| && t[i].CameraRendered? ==> i == |t| - 3)
            && (forall x :: Destroyed(x) in t <==> Destroyed(x) in work)
            && (forall x :: Allocated(x) in t <==> Allocated(x) in work)
  {
    var tail := [CameraEnabled(v, true), CameraRendered(v), CameraEnabled(v, false), ContentVisible(v, false)];
    var t := [ContentVisible(v, true)] + work + tail;
    TargetWorkPositions(v, work);
    assert forall e :: e in t <==> e == ContentVisible(v, true) || e in work || e in tail;
  }

  /** Target work between showing the content and enabling the camera leaves the
      bracket's shape intact, with the one render third from the end. */
  lemma TargetWorkPositions(v: ViewIndex, work: seq<Effect>)
    requires forall e :: e in work ==> e.Allocated? || e.Destroyed? || e.TargetSet?
    ensures var t := [ContentVisible(v, true)] + work
                     + [CameraEnabled(v, true), CameraRendered(v), CameraEnabled(v, false), ContentVisible(v, false)];
            && RenderBracket(t, v)
            && (forall i :: 0 <= i < |t| && t[i].CameraRendered? ==> i == |t| - 3)
  {
    var t := [ContentVisible(v, true)] + work
             + [CameraEnabled(v, true), CameraRendered(v), CameraEnabled(v, false), ContentVisible(v, false)];
    assert forall i :: 0 < i < |t| - 4 ==> t[i] == work[i - 1];
  }

  /** Acquiring the same viewport again reuses the target and the camera binding: the
      second call only toggles visibility and the camera around one render. */
  method AcquireTwice(renderer: Renderer, d: RenderingData, next: nat, pixelsPerPoint: real)
    returns (a1: AcquireStep, a2: AcquireStep)
    requires !IsNullArea(d.viewPort)
    ensures a2.data == a1.data && a2.next == a1.next
    ensures a2.effects == SteadyBracket(d.stage.camera.view)
    ensures |a1.effects| >= 5
  {
    a1 := Acquire(renderer, d, next, pixelsPerPoint);
    a2 := Acquire(renderer, a1.data, a1.next, pixelsPerPoint);
  }

  /** A degenerate viewport drops the output without destroying it, and the camera
      keeps targeting it; the next proper acquire allocates a new target and never
      destroys the dropped one, which is left orphaned. */
  method DegenerateThenProperAcquire(renderer: Renderer, d: RenderingData, t: Texture,
                                     proper: Rect, next: nat, pixelsPerPoint: real)
    returns (a1: AcquireStep, a2: AcquireStep)
    requires d.output == Some(t) && IsNullArea(d.viewPort) && !IsNullArea(proper)
    ensures a1.data.output.None?
    ensures a1.data.stage.camera.target == d.stage.camera.target
    ensures a1.effects == []
    ensures a2.data.output.Some? && a2.data.output.value.id == next
    ensures Destroyed(t) !in a1.effects + a2.effects
  {
    a1 := Acquire(renderer, d, next, pixelsPerPoint);
    var d2 := a1.data.(viewPort := proper);
    assert d2.output.None? && !Fits(d2.output, TargetSizeOf(proper, pixelsPerPoint, renderer.pixelPerfect));
    a2 := Acquire(renderer, d2, a1.next, pixelsPerPoint);
    assert Destroyed(t) !in a2.effects;
    assert a1.effects + a2.effects == a2.effects;
  }
}

=== FILE: sizing.dfy ===
/**
 The supersampling scale factor shared by `RenderTextureCache.GetScaleFactor` and
 `Renderer.GetScaleFactor`, and the integer target size derived from it.

 Arithmetic is over the reals; the display density `EditorGUIUtility.pixelsPerPoint`
 is a parameter.
 */
module Sizing {
  import opened LookDevTypes

  /** The largest scaled side supersampling may produce. */
  const SupersampleCap: real := 1024.0

  function Min(a: real, b: real): real { if a <= b then a else b }

  function Max(a: real, b: real): real { if a >= b then a else b }

  /** The supersampling factor of one axis: the side is clamped into
      [w, max(w, min(2w, 1024))] and divided by w. Doubling for small sides,
      stretching up to 1024 for medium ones, never undersampling. */
  function AxisFactor(w: real): (f: real)
    requires w != 0.0
    ensures w > 0.0 ==> 1.0 <= f <= 2.0
    ensures 0.0 < w <= SupersampleCap / 2.0 ==> f == 2.0
    ensures w >= SupersampleCap ==> f == 1.0
    ensures w < 0.0 ==> f == 1.0
  {
    var clamped := Max(Min(w * 2.0, SupersampleCap), w);
    DivisionFacts(clamped, w);
    clamped / w
  }

  /** The scaled side `w * AxisFactor(w)` is the clamped side: between the side and
      max(side, 1024), and exactly 1024 for sides strictly between 512 and 1024. */
  lemma AxisFactorScaledSide(w: real)
    requires w != 0.0
    ensures w > 0.0 ==> w <= w * AxisFactor(w) <= Max(w, SupersampleCap)
    ensures SupersampleCap / 2.0 < w < SupersampleCap ==> w * AxisFactor(w) == SupersampleCap
  {
    DivisionFacts(Max(Min(w * 2.0, SupersampleCap), w), w);
  }

  /** Division by a nonzero side, stated in the forms the axis factor needs. */
  lemma DivisionFacts(c: real, w: real)
    requires w != 0.0
    ensures w * (c / w) == c
    ensures c == w ==> c / w == 1.0
    ensures c == 2.0 * w || c == w * 2.0 ==> c / w == 2.0
    ensures w > 0.0 && w <= c <= 2.0 * w ==> 1.0 <= c / w <= 2.0
  {
    if w > 0.0 && w <= c <= 2.0 * w {
      assert w * 1.0 <= w * (c / w) <= w * 2.0;
    }
  }

  /** `Mathf.Round`: the nearest integer, a tie going to the even neighbour. */
  function RoundHalfEven(x: real): (n: int)
    ensures -0.5 <= n as real - x <= 0.5
    ensures (n as real - x == 0.5 || x - n as real == 0.5) ==> n % 2 == 0
  {
    var f := x.Floor;
    var frac := x - f as real;
    if frac < 0.5 then f
    else if frac > 0.5 then f + 1
    else if f % 2 == 0 then f
    else f + 1
  }

  /** The raw factor: the smaller of the two axis factors, times the display density. */
  function RawScaleFactor(width: real, height: real, pixelsPerPoint: real): real
    requires width != 0.0 && height != 0.0
  {
    Min(AxisFactor(width), AxisFactor(height)) * pixelsPerPoint
  }

  /** The raw factor is one of the two scaled axis factors, and for a nonnegative
      density the smaller of them. */
  lemma RawScaleFactorIsSmallerAxis(width: real, height: real, pixelsPerPoint: real)
    requires width != 0.0 && height != 0.0
    ensures var s, fx, fy := RawScaleFactor(width, height, pixelsPerPoint), AxisFactor(width), AxisFactor(height);
            && (s == fx * pixelsPerPoint || s == fy * pixelsPerPoint)
            && (pixelsPerPoint >= 0.0 ==> s <= fx * pixelsPerPoint && s <= fy * pixelsPerPoint)
  {
    MinScaled(AxisFactor(width), AxisFactor(height), pixelsPerPoint);
  }

  /** The raw factor lies between the density and twice the density. */
  lemma RawScaleFactorDensityBounds(width: real, height: real, pixelsPerPoint: real)
    requires width > 0.0 && height > 0.0 && pixelsPerPoint > 0.0
    ensures pixelsPerPoint <= RawScaleFactor(width, height, pixelsPerPoint) <= 2.0 * pixelsPerPoint
  {
    MinDensityBounds(width, height, pixelsPerPoint);
  }

  /** At density 1 each scaled side stays between the side and the cap: never
      undersampled, never supersampled past 1024. */
  lemma RawScaleFactorCapped(width: real, height: real)
    requires width > 0.0 && height > 0.0
    ensures var s := RawScaleFactor(width, height, 1.0);
            && width <= width * s <= Max(width, SupersampleCap)
            && height <= height * s <= Max(height, SupersampleCap)
  {
    MinCappedSides(width, height);
  }

  /** Scaling the smaller of two factors by a density picks one of the two scaled
      factors, and for a nonnegative density the smaller one. */
  lemma MinScaled(fx: real, fy: real, p: real)
    ensures Min(fx, fy) * p == fx * p || Min(fx, fy) * p == fy * p
    ensures p >= 0.0 ==> Min(fx, fy) * p <= fx * p && Min(fx, fy) * p <= fy * p
  {
    if fx <= fy {
      ScaleMonotone(p, fx, fy);
    } else {
      ScaleMonotone(p, fy, fx);
    }
  }

  /** The smaller axis factor scales a positive density into [density, 2 density]. */
  lemma MinDensityBounds(width: real, height: real, p: real)
    requires width != 0.0 && height != 0.0
    ensures width > 0.0 && height > 0.0 && p > 0.0 ==>
              p <= Min(AxisFactor(width), AxisFactor(height)) * p <= 2.0 * p
  {
    if width > 0.0 && height > 0.0 && p > 0.0 {
      var fx, fy := AxisFactor(width), AxisFactor(height);
      assert 1.0 <= Min(fx, fy) <= 2.0;
      DensityBounds(Min(fx, fy), p);
    }
  }

  /** At density 1 the smaller axis factor keeps both scaled sides between the side
      and the cap. */
  lemma MinCappedSides(width: real, height: real)
    requires width != 0.0 && height != 0.0
    ensures var s := Min(AxisFactor(width), AxisFactor(height)) * 1.0;
            width > 0.0 && height > 0.0 ==>
              width <= width * s <= Max(width, SupersampleCap) &&
              height <= height * s <= Max(height, SupersampleCap)
  {
    if width > 0.0 && height > 0.0 {
      var fx, fy := AxisFactor(width), AxisFactor(height);
      var m := Min(fx, fy);
      assert m * 1.0 == m;
      AxisFactorScaledSide(width);
      AxisFactorScaledSide(height);
      ScaleMonotone(width, 1.0, m);
      ScaleMonotone(width, m, fx);
      ScaleMonotone(height, 1.0, m);
      ScaleMonotone(height, m, fy);
    }
  }

  /** `GetScaleFactor(width, height, pixelPerfect)`: the raw factor, rounded to an
      integer no smaller than 1 when pixel-perfect output is asked for. */
  function ScaleFactor(width: real, height: real, pixelsPerPoint: real, pixelPerfect: bool): (s: real)
    requires width != 0.0 && height != 0.0
    ensures pixelPerfect ==> s >= 1.0 && s == s.Floor as real
    ensures pixelPerfect && RawScaleFactor(width, height, pixelsPerPoint) >= 1.0 ==>
              -0.5 <= s - RawScaleFactor(width, height, pixelsPerPoint) <= 0.5
    ensures pixelPerfect && RawScaleFactor(width, height, pixelsPerPoint) < 1.0 ==> s == 1.0
    ensures !pixelPerfect ==> s == RawScaleFactor(width, height, pixelsPerPoint)
  {
    var raw := RawScaleFactor(width, height, pixelsPerPoint);
    if pixelPerfect then Max(RoundHalfEven(raw) as real, 1.0) else raw
  }

  /** The C# `(int)` cast of a float: truncation toward zero. */
  function Truncate(x: real): (n: int)
    ensures x >= 0.0 ==> n >= 0 && n as real <= x < n as real + 1.0
    ensures x < 0.0 ==> n <= 0 && n as real - 1.0 < x <= n as real
  {
    if x >= 0.0 then x.Floor else -((-x).Floor)
  }

  datatype Size = Size(width: int, height: int)

  /** The render-target size computed for a viewport of the given size:
      each side times the scale factor, truncated. */
  function TargetSize(width: real, height: real, pixelsPerPoint: real, pixelPerfect: bool): (sz: Size)
    requires width != 0.0 && height != 0.0
    ensures width > 0.0 && height > 0.0 && pixelsPerPoint > 0.0 ==> sz.width >= 0 && sz.height >= 0
  {
    var s := ScaleFactor(width, height, pixelsPerPoint, pixelPerfect);
    PositiveProduct(width, s);
    PositiveProduct(height, s);
    Size(Truncate(width * s), Truncate(height * s))
  }

  /** A rectangle whose sides are numbers other than zero: the scale factor is defined. */
  predicate Sizable(r: Rect)
  {
    r.width.Num? && r.height.Num? && r.width.value != 0.0 && r.height.value != 0.0
  }

  /** The target size for a viewport rectangle. */
  function TargetSizeOf(r: Rect, pixelsPerPoint: real, pixelPerfect: bool): Size
    requires Sizable(r)
  {
    TargetSize(r.width.value, r.height.value, pixelsPerPoint, pixelPerfect)
  }

  /** Whether a slot holds a texture of exactly the given size. */
  predicate Fits(slot: Option<Texture>, sz: Size)
  {
    slot.Some? && slot.value.width == sz.width && slot.value.height == sz.height
  }

  /** A factor in [1, 2] scales a positive density into [density, 2 density]. */
  lemma DensityBounds(m: real, pixelsPerPoint: real)
    ensures 1.0 <= m <= 2.0 && pixelsPerPoint > 0.0 ==>
              pixelsPerPoint <= m * pixelsPerPoint <= 2.0 * pixelsPerPoint
  {
    if 1.0 <= m <= 2.0 && pixelsPerPoint > 0.0 {
      var low, high := (m - 1.0) * pixelsPerPoint, (2.0 - m) * pixelsPerPoint;
      NonnegativeProduct(m - 1.0, pixelsPerPoint);
      NonnegativeProduct(2.0 - m, pixelsPerPoint);
      assert m * pixelsPerPoint == pixelsPerPoint + low;
      assert 2.0 * pixelsPerPoint == m * pixelsPerPoint + high;
    }
  }

  lemma NonnegativeProduct(a: real, b: real)
    ensures a >= 0.0 && b >= 0.0 ==> a * b >= 0.0
  {
  }

  lemma PositiveProduct(a: real, b: real)
    ensures a > 0.0 && b > 0.0 ==> a * b > 0.0
  {
  }

  /** Scaling by a nonnegative factor keeps the order. */
  lemma ScaleMonotone(a: real, x: real, y: real)
    ensures a >= 0.0 && x <= y ==> a * x <= a * y && x * a <= y * a
  {
    if a >= 0.0 && x <= y {
      NonnegativeProduct(a, y - x);
      assert a * y - a * x == a * (y - x);
    }
  }

  /** A 100 x 50 viewport at density 1 is supersampled twice: a 200 x 100 target. */
  lemma SupersampledExample()
    ensures TargetSize(100.0, 50.0, 1.0, false) == Size(200, 100)
  {
  }

  /** A 512 x 512 viewport at density 1 with pixel-perfect rounding has factor 2:
      a 1024 x 1024 target (the clamp reaches the 1024 cap exactly). */
  lemma PixelPerfectSquareExample()
    ensures ScaleFactor(512.0, 512.0, 1.0, true) == 2.0
    ensures TargetSize(512.0, 512.0, 1.0, true) == Size(1024, 1024)
  {
  }

  /** A side of 2000 points is not supersampled; a 300-point side still is, so the
      smaller factor of the two wins and the target keeps the 2000-point side. */
  lemma LargeViewportExample()
    ensures TargetSize(2000.0, 300.0, 1.0, false) == Size(2000, 300)
  {
  }
}

=== FILE: stages.dfy ===
/**
 `StageCache`: the two preview stages, one per view, each built with its own scene
 name and camera background colour.

 Pushing the environment onto a stage's scene goes through the engine's
 render-settings override. Only whether that override is accepted is modelled:
 a refusal aborts construction.
 */
module Stages {
  import opened LookDevTypes

  /** An 8-bit RGBA colour. */
  datatype Color32 = Color32(r: int, g: int, b: int, a: int)

  /** A preview stage: its scene name, its camera's background colour, its camera,
      and whether the previewed content is currently visible. */
  datatype Stage = Stage(name: string, background: Color32, camera: Camera, contentVisible: bool)

  datatype StageError = SceneNotCreated

  const FirstStageName: string := "LookDevFirstView"
  const SecondStageName: string := "LookDevSecondView"

  /** `StageCache.InitStage`. `overrideAccepted` is the answer of
      `Unsupported.SetOverrideRenderSettings` for the new stage's scene. A fresh stage
      is taken to have a disabled camera with no target and hidden content. */
  function InitStage(view: ViewIndex, overrideAccepted: bool): (r: Result<Stage, StageError>)
    ensures r.Failure? <==> !overrideAccepted
    ensures r.Failure? ==> r.error == SceneNotCreated
    ensures r.Success? ==> r.value.camera == Camera(view, false, None) && !r.value.contentVisible
  {
    var stage :=
      match view
      case First => Stage(FirstStageName, Color32(0, 154, 154, 255), Camera(view, false, None), false)
      case Second => Stage(SecondStageName, Color32(255, 37, 4, 255), Camera(view, false, None), false);
    if overrideAccepted then Success(stage) else Failure(SceneNotCreated)
  }

  /** The `StageCache` constructor: the first stage, then the second. */
  function InitStages(firstAccepted: bool, secondAccepted: bool): (r: Result<(Stage, Stage), StageError>)
    ensures r.Success? <==> firstAccepted && secondAccepted
    ensures r.Success? ==>
              && r.value.0.camera.view == ViewIndex.First
              && r.value.1.camera.view == ViewIndex.Second
              && r.value.0.name != r.value.1.name
              && r.value.0.background != r.value.1.background
  {
    match InitStage(ViewIndex.First, firstAccepted)
    case Failure(e) => Failure(e)
    case Success(first) =>
      match InitStage(ViewIndex.Second, secondAccepted)
      case Failure(e) => Failure(e)
      case Success(second) => Success((first, second))
  }
}

=== FILE: texture_cache.dfy ===
/**
 `RenderTextureCache`: one offscreen target per routing index, (re)allocated only
 when the slot is empty or its size no longer matches the viewport.

 The cache is held by the compositer but not used on its render path, which goes
 through `Rendering.UpdateSizeAndLinkToCamera` instead.
 */
module TextureCache {
  import opened LookDevTypes
  import opened Sizing

  /** `m_RTs`: three optional targets, indexed by `ViewCompositionIndex`. */
  datatype Cache = Cache(first: Option<Texture>, second: Option<Texture>, composite: Option<Texture>)
  {
    function Get(i: ViewCompositionIndex): Option<Texture>
    {
      match i
      case First => first
      case Second => second
      case Composite => composite
    }

    function Put(i: ViewCompositionIndex, t: Option<Texture>): (c: Cache)
      ensures c.Get(i) == t
      ensures forall j :: j != i ==> c.Get(j) == Get(j)
    {
      match i
      case First => this.(first := t)
      case Second => this.(second := t)
      case Composite => this.(composite := t)
    }
  }

  /** A replacement target and the effects of making it. */
  datatype Replacement = Replacement(texture: Texture, next: nat, effects: seq<Effect>)

  /** Destroy the previous target, if any, then allocate a new one of the given size.
      Texture identities come from the counter `next`. */
  function Replace(previous: Option<Texture>, sz: Size, next: nat): (r: Replacement)
    ensures r.texture == Texture(next, sz.width, sz.height) && r.next == next + 1
    ensures previous.None? ==> r.effects == [Allocated(r.texture)]
    ensures previous.Some? ==> r.effects == [Destroyed(previous.value), Allocated(r.texture)]
  {
    var t := Texture(next, sz.width, sz.height);
    var destroy := if previous.Some? then [Destroyed(previous.value)] else [];
    Replacement(t, next + 1, destroy + [Allocated(t)])
  }

  datatype CacheStep = CacheStep(cache: Cache, camera: Camera, next: nat, effects: seq<Effect>)

  /** The body of `RenderTextureCache.UpdateSize` once the target size `sz` is known:
      reallocate slot `index` when it is empty or of another size, binding the camera
      to the new target only. */
  function ResizeSlot(c: Cache, index: ViewCompositionIndex, sz: Size, camera: Camera, next: nat): (r: CacheStep)
    ensures Fits(r.cache.Get(index), sz)
    ensures forall j :: j != index ==> r.cache.Get(j) == c.Get(j)
    ensures r.cache.Get(index) != c.Get(index) <==> !Fits(c.Get(index), sz)
    ensures Fits(c.Get(index), sz) ==> r == CacheStep(c, camera, next, [])
    ensures !Fits(c.Get(index), sz) ==>
              && r.cache.Get(index).Some?
              && r.cache.Get(index).value.id == next
              && r.next == next + 1
              && r.camera == camera.(target := r.cache.Get(index))
              && |r.effects| >= 2
              && r.effects[|r.effects| - 2] == Allocated(r.cache.Get(index).value)
              && r.effects[|r.effects| - 1] == TargetSet(camera.view, r.cache.Get(index))
              && (c.Get(index).Some? ==> |r.effects| == 3 && r.effects[0] == Destroyed(c.Get(index).value))
              && (c.Get(index).None? ==> |r.effects| == 2)
  {
    var previous := c.Get(index);
    if Fits(previous, sz) then
      CacheStep(c, camera, next, [])
    else
      var rep := Replace(previous, sz, next);
      var slot := Some(rep.texture);
      CacheStep(c.Put(index, slot), camera.(target := slot), rep.next,
                rep.effects + [TargetSet(camera.view, slot)])
  }

  /** `RenderTextureCache.UpdateSize`: size slot `index` for `rect`. */
  function UpdateSize(c: Cache, rect: Rect, index: ViewCompositionIndex, pixelPerfect: bool,
                      camera: Camera, next: nat, pixelsPerPoint: real): (r: CacheStep)
    requires Sizable(rect)
    ensures Fits(r.cache.Get(index), TargetSizeOf(rect, pixelsPerPoint, pixelPerfect))
    ensures forall j :: j != index ==> r.cache.Get(j) == c.Get(j)
    ensures r.cache.Get(index) != c.Get(index) <==> !Fits(c.Get(index), TargetSizeOf(rect, pixelsPerPoint, pixelPerfect))
    ensures Fits(c.Get(index), TargetSizeOf(rect, pixelsPerPoint, pixelPerfect)) ==> r == CacheStep(c, camera, next, [])
    ensures !Fits(c.Get(index), TargetSizeOf(rect, pixelsPerPoint, pixelPerfect)) ==>
              && r.cache.Get(index).Some?
              && r.cache.Get(index).value.id == next
              && r.next == next + 1
              && r.camera == camera.(target := r.cache.Get(index))
              && |r.effects| >= 2
              && r.effects[|r.effects| - 2] == Allocated(r.cache.Get(index).value)
              && r.effects[|r.effects| - 1] == TargetSet(camera.view, r.cache.Get(index))
              && (c.Get(index).Some? ==> |r.effects| == 3 && r.effects[0] == Destroyed(c.Get(index).value))
              && (c.Get(index).None? ==> |r.effects| == 2)
  {
    ResizeSlot(c, index, TargetSizeOf(rect, pixelsPerPoint, pixelPerfect), camera, next)
  }

  /** Repeating `UpdateSize` with the same rectangle allocates, destroys and binds nothing. */
  lemma UpdateSizeIdempotent(c: Cache, rect: Rect, index: ViewCompositionIndex, pixelPerfect: bool,
                             camera: Camera, next: nat, pixelsPerPoint: real)
    requires Sizable(rect)
    ensures var s1 := UpdateSize(c, rect, index, pixelPerfect, camera, next, pixelsPerPoint);
            UpdateSize(s1.cache, rect, index, pixelPerfect, s1.camera, s1.next, pixelsPerPoint)
              == CacheStep(s1.cache, s1.camera, s1.next, [])
  {
  }

  /** A resize of an occupied slot destroys exactly the previous target, allocates exactly
      one new target, and the destruction comes first. */
  lemma ResizeDestroysThenAllocates(c: Cache, rect: Rect, index: ViewCompositionIndex, pixelPerfect: bool,
                                    camera: Camera, next: nat, pixelsPerPoint: real)
    requires Sizable(rect)
    requires c.Get(index).Some? && !Fits(c.Get(index), TargetSizeOf(rect, pixelsPerPoint, pixelPerfect))
    ensures var s := UpdateSize(c, rect, index, pixelPerfect, camera, next, pixelsPerPoint);
            && multiset(s.effects)[Destroyed(c.Get(index).value)] == 1
            && (forall i :: 0 <= i < |s.effects| && s.effects[i].Allocated? ==> i == 1)
            && (forall i :: 0 <= i < |s.effects| && s.effects[i].Destroyed? ==> i == 0)
  {
  }
}

=== FILE: types.dfy ===
/**
 The vocabulary shared by the LookDev model: the view and layout enumerations,
 single-precision values with NaN, rectangles, render-texture handles, cameras,
 and the trace of side effects every step function returns.

 Unity objects are abstracted to plain values. A render texture is a handle that
 carries its identity and its size; engine calls (allocation, destruction, a camera
 render) are not given semantics and only appear as `Effect`s in a trace.
 */
module LookDevTypes {

  datatype Option<+T> = None | Some(value: T)

  datatype Result<+T, +E> = Success(value: T) | Failure(error: E)

  /** One of the two independent preview pipelines. */
  datatype ViewIndex = First | Second

  /** Where a rendered result is routed; `Composite` is the blend of both views. */
  datatype ViewCompositionIndex = First | Second | Composite

  /** The six view layouts of the LookDev window. */
  datatype Layout =
    | FullFirstView
    | FullSecondView
    | HorizontalSplit
    | VerticalSplit
    | CustomSplit
    | CustomCircular

  /** The C# cast `(ViewCompositionIndex)index`: both enumerations number First 0 and Second 1. */
  function AsCompositionIndex(v: ViewIndex): (i: ViewCompositionIndex)
    ensures i != ViewCompositionIndex.Composite
  {
    match v
    case First => ViewCompositionIndex.First
    case Second => ViewCompositionIndex.Second
  }

  /** The other view of the pair. */
  function Other(v: ViewIndex): (o: ViewIndex)
    ensures o != v
  {
    match v
    case First => ViewIndex.Second
    case Second => ViewIndex.First
  }

  /** A single-precision float, with its value taken as a real; infinities are not modelled. */
  datatype Float = Num(value: real) | NaN

  /** `x < bound` in IEEE arithmetic: every comparison with NaN is false. */
  predicate LessThan(x: Float, bound: real)
  {
    x.Num? && x.value < bound
  }

  /** A screen rectangle; only its size takes part in the modelled logic. */
  datatype Rect = Rect(width: Float, height: Float)

  /** A render texture handle: its identity and its integer size. */
  datatype Texture = Texture(id: nat, width: int, height: int)

  /** A stage camera: which view it belongs to, whether it is enabled, and what it renders into. */
  datatype Camera = Camera(view: ViewIndex, enabled: bool, target: Option<Texture>)

  /** Side effects recorded in the order they happen. */
  datatype Effect =
      // engine calls
    | Allocated(texture: Texture)
    | Destroyed(texture: Texture)
    | TargetSet(view: ViewIndex, target: Option<Texture>)
    | ContentVisible(view: ViewIndex, visible: bool)
    | CameraEnabled(view: ViewIndex, enabled: bool)
    | CameraRendered(view: ViewIndex)
      // calls the compositer makes into the renderer and the displayer
    | AcquireCalled(view: ViewIndex, viewPort: Rect)
    | TextureDelivered(index: ViewCompositionIndex, delivered: Option<Texture>)
      // the displayer's own effects
    | ImageAssigned(view: ViewIndex, image: Option<Texture>)
    | LayoutChanged(layout: Layout)
      // frame-capture tool
    | CaptureBegun
    | CaptureEnded

  /** Effects that are neither calls from the compositer nor frame-capture brackets. */
  predicate IsInnerEffect(e: Effect)
  {
    !e.AcquireCalled? && !e.TextureDelivered? && !e.CaptureBegun? && !e.CaptureEnded?
  }
}
